=== FILE: README.md ===
# SpiritBox core in Dafny

SpiritBox is a browser toy that imitates a "spirit box" radio scanner. It
sweeps a tuned frequency through a band, plays filtered noise, and now and
then plays a synthetic EVP (electronic voice phenomenon) burst and writes
it to an event log. It also tallies the words of speech transcriptions into
a word cloud and shows a decibel meter. This project models the sequential,
deterministic core under the DOM and Web Audio plumbing, and proves
properties of it.

The model is functional. Every state is an immutable datatype, and every
handler is a pure function or method. Timer ticks are explicit calls. The
following are arguments:
- the current time;
- the `Math.random()` draws;
- the wall-clock strings of log entries;
- the analyser's byte and sample data;
- the decimal logarithm.

Modules (one file each):

- `Numbers` (numbers.dfy): JavaScript numbers.
  - They are modelled as reals, with NaN kept explicitly (`Number`).
  - Decibel values are reals or -Infinity (`Level`).
  - Also here: bytes, random draws, `Option`, and the clamp.
- `Tuner` (tuner.dfy): the tuner state machine of spiritBox.js.
  - The state holds the frequency, FM/AM mode, power, the EVP cooldown clock, and the preset table.
  - `currentRange` is an object reference in the source. In the model it is a reference into the preset table (`Preset(band)`) or a range of its own (`Own(range)`).
  - So a step change made on a selected preset is written into the table. It is seen again when the band is selected later.
  - Each handler reports how many sweep-timer restarts it performs.
- `Words` (words.dfy): the transcription tally and the word cloud.
  - Trim, lower-case, and split on `/\s+/` follow JavaScript.
  - A word's length is its JavaScript `length`, in UTF-16 code units.
  - The `Map` is a sequence of entries in insertion order.
  - The cloud is a stable sort by count, descending, cut to ten.
- `EventLog` (eventlog.dfy): the event log. New entries go first and the log keeps at most ten.
- `DecibelMeter` (meter.dfy): the meter.
  - It keeps a 30-reading rolling history and its average.
  - It computes the clamped fill percentage and holds the peak.
  - Stopping it resets it.
- `Evp` (evp.dfy): the EVP sound table of audioEngine.js and its first-match lookup. Also the parameters of the three oscillators of a burst.
- `AudioEngine` (audio.dfy): the engine's node references and gain/delay values, as far as the modelled operations read or write them.
  - This covers the mix, volume, noise start/stop and cleanup, the decibel reading, and the waveform data.
  - A write that reads `context.currentTime` after `cleanup` has cleared the context throws a TypeError. It is modelled as `None`.
- `SpiritBox` (spiritbox.dfy): the box as a whole.
  - The sweep tick and the meter tick, each possibly firing an EVP.
  - Power toggling, the volume and effects sliders, cleanup, and the speech-result handler.
  - An invariant that every handler keeps.

Some behaviour of the code is kept as written, not as one might expect:

- The frequency is not bound to the current range. `toggleMode` tunes to 87.5 or 520 whatever the band is (`Tuner.ToggleModeLeavesRange`).
- The FM entry of the EVP sound table is in kHz, but the FM band is tuned in MHz. An FM-band frequency therefore never selects the FM sound (`Evp.FmBandFallsBack`).
- A custom range takes its step unchecked. A blank step field makes the step NaN, and the sweep then keeps the frequency NaN (`Tuner.SweepWithNaNStep`).
- `cleanup` clears the audio context but not the other node references. A later volume change then throws (`AudioEngine.CleanupLeavesStaleNodes`).
- `generateNoise` disconnects the old noise source but neither stops nor disconnects the old modulator. A recognizer that throws on switching on leaves the modulator running with power off. The next switch-on then orphans it, and it keeps modulating the master gain after power is switched off again. The engine counts such modulators as strays (`SpiritBox.RestartAfterRecognitionFailureLeaks`).
- The decibel reading has only a lower clamp, at -100. The upper bound 0 is not a clamp: it follows from each byte being at most 255, since the sum of squares is at most n·255² (`AudioEngine.SumOfSquares`, `AudioEngine.DecibelLevel`). The meter fill at spiritBox.js:608-609 relies on this range of -100 to 0 dB.

## Model

| member | source | states |
|---|---|---|
| `Numbers.Clamp` | audioEngine.js:116 | the clamped value lies in [lo, hi], is the input when that is inside, and equals both `Math.min(Math.max(x, lo), hi)` and `Math.max(lo, Math.min(hi, x))` |
| `Tuner.InitialValid` | spiritBox.js:5-22 | the constructor's state has min < max in the selected range and in the four band presets |
| `Tuner.Sweep` | spiritBox.js:412-416 | a sweep changes only the frequency and keeps the tuner valid |
| `Tuner.SweepAtMostMax` | spiritBox.js:412-416 | with a numeric frequency and step, the frequency after a sweep is at most the range maximum |
| `Tuner.SweepStaysInRange` | spiritBox.js:412-416 | from a frequency at or above the minimum, a positive step keeps the frequency in [min, max] |
| `Tuner.SweepStepOrWrap` | spiritBox.js:412-416 | the new frequency is old + step when that is not above max, else min |
| `Tuner.SweepWithNaNStep` | spiritBox.js:413 | a NaN step makes the frequency NaN, and it stays NaN |
| `Tuner.Sweeps` | spiritBox.js:393 | repeated sweep ticks change only the frequency and keep the tuner valid |
| `Tuner.SweepsAdvance` | spiritBox.js:412-416 | while max is not passed, k sweeps advance the frequency by exactly k steps |
| `Tuner.SweepsWrap` | spiritBox.js:414-415 | the first sweep that would pass max lands on min |
| `Tuner.SweepsStayInRange` | spiritBox.js:412-416 | once in [min, max] with a positive step, the frequency stays there for any number of sweeps |
| `Tuner.UpdateCustomRange` | spiritBox.js:311-333 | when min < max (false for NaN), the range becomes {min, max, step, Hz} and the frequency becomes min, with one timer restart while on; otherwise nothing changes; the preset table never changes |
| `Tuner.HandleBandChange` | spiritBox.js:289-309 | a preset band selects its table entry and tunes to its minimum; custom goes through the custom-range update; one extra restart while on; nothing else changes |
| `Tuner.UpdateSweepStep` | spiritBox.js:335-344 | only a step > 0 is taken; it replaces the step of the range `currentRange` denotes, which is the table entry when a preset is selected; frequency, mode, power and other presets are untouched |
| `Tuner.StepSurvivesReselection` | spiritBox.js:296-338 | a step set on a selected preset is in effect again after switching to any other band, the custom one included, and back |
| `Tuner.CustomStepLeavesPresets` | spiritBox.js:316-338 | a step set on a custom range does not reach the preset table |
| `Tuner.ToggleMode` | spiritBox.js:375-388 | while off nothing changes; while on the mode flips and the frequency becomes 87.5 (FM) or 520 (AM); only mode and frequency change |
| `Tuner.ToggleModeTwice` | spiritBox.js:378 | toggling twice restores the mode and leaves the range as it was |
| `Tuner.ToggleModeLeavesRange` | spiritBox.js:382-386 | in the FM band, switching to AM tunes to 520, above the band's maximum |
| `Tuner.TogglePower` | spiritBox.js:346-373 | power is on afterwards exactly when it was off and the start did not throw; nothing else changes |
| `Tuner.ShouldTriggerEvp` | spiritBox.js:471-475 | the EVP gate: at least 2000 ms since the last EVP and a draw below 0.1; its contract is stated by `Tuner.GateClosedDuringCooldown` |
| `Tuner.TriggerEvp` | spiritBox.js:477-478 | the cooldown clock becomes the trigger time and nothing else changes |
| `Tuner.GateClosedDuringCooldown` | spiritBox.js:471-475 | within 2000 ms of the last EVP the gate is shut for any draw; after that it opens exactly when the draw is below 0.1 |
| `Tuner.NoRetriggerWithinCooldown` | spiritBox.js:471-478 | after a trigger, no draw passes the gate less than 2000 ms later |
| `Tuner.PeakIndex` | spiritBox.js:733-736 | the graph peak index, when there is one, is in [0, 50); for a valid tuner there is one exactly when the frequency is a number in [min, max) |
| `Tuner.PeakBars` | spiritBox.js:724-740 | the raised bars lie in [0, 50), include the peak index, and exist only while on with a peak in range |
| `Words.ToLower` | spiritBox.js:540 | upper-case ASCII letters map to their lower-case letter, every other character to itself; whitespace is preserved both ways |
| `Words.Lower` | spiritBox.js:540 | lower-casing keeps the length and works character by character |
| `Words.TrimStart` | spiritBox.js:526 | the result is a suffix of the input, only whitespace was removed, and it does not start with whitespace |
| `Words.TrimEnd` | spiritBox.js:526 | the result is a prefix of the input, only whitespace was removed, and it does not end with whitespace |
| `Words.Trim` | spiritBox.js:526 | the trimmed transcript is a slice of the input with only whitespace cut on each side, and it neither starts nor ends with whitespace |
| `Words.WordPrefix` | spiritBox.js:540 | the longest whitespace-free prefix: a prefix, without whitespace, followed by whitespace or the end |
| `Words.Split` | spiritBox.js:540 | `split(/\s+/)` gives at least one piece and no piece contains whitespace |
| `Words.SplitOfTrimmedHasNoEmptyPiece` | spiritBox.js:526-540 | splitting a trimmed non-empty transcript gives no empty piece |
| `Words.SplitKeepsText` | spiritBox.js:540 | the pieces of the split, joined, are the non-whitespace characters of the input in order |
| `Words.SplitBreaksAtSpaceRuns` | spiritBox.js:540 | the input is the pieces of the split joined by non-empty runs of whitespace |
| `Words.SplitInnerPiecesNonEmpty` | spiritBox.js:540 | only the first and the last piece of a split can be empty |
| `Words.SplitIsUnique` | spiritBox.js:540 | any whitespace-free pieces with non-empty inner pieces that join to the input through non-empty whitespace runs are exactly the split |
| `Words.TranscriptWords` | spiritBox.js:540 | the words taken from the trimmed transcript, lower-cased and split, contain no whitespace |
| `Words.Count` | spiritBox.js:543 | `get(word)` or 0: a word not in the tally counts 0, and in a tally with distinct keys a word's count is the count stored in its entry |
| `Words.Increment` | spiritBox.js:543-544 | `set(word, count + 1)` raises that word's count by one, leaves every other count, adds the word to the keys, and keeps keys distinct |
| `Words.IncrementKeepsOrder` | spiritBox.js:544 | `Map.set` keeps every existing key in place and appends a new key with count 1 |
| `Words.SplitOfJoin` | spiritBox.js:540 | a word, a whitespace run and a rest that does not start with whitespace split into the word followed by the split of the rest |
| `Words.Utf16Length` | spiritBox.js:542 | `word.length` counts UTF-16 code units: between the number of characters and twice that |
| `Words.Utf16LengthOfBmp` | spiritBox.js:542 | for characters of the Basic Multilingual Plane the length is the number of characters |
| `Words.EmojiWordCounted` | spiritBox.js:542 | a letter followed by an emoji is two characters but three code units, so the word is counted |
| `Words.AddWords` | spiritBox.js:541-546 | the tally over a word list keeps keys distinct |
| `Words.AddWordsCounts` | spiritBox.js:541-546 | each word longer than two UTF-16 code units gains exactly its number of occurrences; shorter words gain nothing |
| `Words.AddWordsKeys` | spiritBox.js:541-546 | the keys afterwards are the old keys and the counted new words |
| `Words.RecordTranscript` | spiritBox.js:540-546 | recording a transcript keeps keys distinct |
| `Words.RecordTranscriptCounts` | spiritBox.js:526-546 | a word's count rises by its number of occurrences in the trimmed, lower-cased, split transcript when it is longer than two UTF-16 code units, and stays otherwise |
| `Words.Insert` | spiritBox.js:559 | inserting into a list sorted by count keeps it sorted and is a permutation of the list plus the entry |
| `Words.SortByCount` | spiritBox.js:558-559 | the sorted entries are in non-increasing count order and a permutation of the tally |
| `Words.WordCloud` | spiritBox.js:558-560 | the cloud has min(size, 10) entries, in non-increasing count order, each taken from the tally no more often than it occurs there |
| `Words.WordCloudIsTop` | spiritBox.js:558-560 | an entry left out of the cloud has no higher count than any entry shown |
| `EventLog.KeepNewest` | spiritBox.js:506-508 | removing the last child while there are more than ten keeps the first min(n, 10) entries |
| `EventLog.Prepend` | spiritBox.js:503-508 | the new entry is first, the old entries follow in order cut to nine, and the length is min(n + 1, 10) |
| `EventLog.NewestFirst` | spiritBox.js:503-508 | of two entries logged in turn, the later one is first and the earlier one second, and the log has at most ten entries |
| `EventLog.PhraseIndex` | spiritBox.js:501 | the phrase index drawn is a valid index into the five phrases |
| `EventLog.LogEvp` | spiritBox.js:490-509 | an EVP entry with the time and one of the five phrases goes first; the rest is the old log cut to nine |
| `EventLog.LogTranscription` | spiritBox.js:570-585 | a transcription entry with the time, transcript and confidence goes first; the rest is the old log cut to nine |
| `DecibelMeter.Repeat` | spiritBox.js:95 | `new Array(n).fill(x)` has length n and every element x |
| `DecibelMeter.Smoothed` | spiritBox.js:606 | the average is -Infinity exactly when some reading is -Infinity, and equals the reading when all readings agree |
| `DecibelMeter.SumAbsorbs` | spiritBox.js:606 | the sum of the history is -Infinity exactly when some reading is -Infinity |
| `DecibelMeter.SumOfConstant` | spiritBox.js:606 | the sum of n equal finite readings is n times the reading |
| `DecibelMeter.Percentage` | spiritBox.js:609 | the meter fill is in [0, 100], 0 for -Infinity, and smoothed + 100 for a reading in range |
| `DecibelMeter.Tick` | spiritBox.js:602-616 | push then shift keeps the length; the smoothed value is the history's average; the peak never falls and becomes the smoothed value when that is higher; strong means smoothed > -20; readings in range keep the history and average in range |
| `DecibelMeter.SmoothedInRange` | spiritBox.js:606 | the average of readings in [-100, 0] or -Infinity is itself in range |
| `DecibelMeter.Ticks` | spiritBox.js:598-637 | any run of meter ticks keeps the history length |
| `DecibelMeter.PeakOnlyRises` | spiritBox.js:615-616 | while the meter runs the peak never decreases |
| `DecibelMeter.HistoryStaysInRange` | spiritBox.js:602-603 | ticks with readings in range keep every history entry in range |
| `DecibelMeter.StoppedIsReset` | spiritBox.js:649-650 | stopping gives 30 readings of -100, peak -Infinity, average -100 |
| `Evp.Find` | audioEngine.js:242-243 | `find` returns the first entry whose closed interval holds the frequency, or nothing when none does |
| `Evp.Select` | audioEngine.js:241-244 | the chosen sound is an entry of the table |
| `Evp.SelectIsFirstMatch` | audioEngine.js:241-244 | the chosen sound is the first matching entry |
| `Evp.SelectFallsBack` | audioEngine.js:244 | with no match the first entry is chosen |
| `Evp.GhostShadowsAm` | audioEngine.js:9-14 | frequencies in [520, 800] choose the ghost sound, and those in (800, 1710] the AM sound |
| `Evp.FmBandFallsBack` | audioEngine.js:13 | every FM-band frequency (87.5 to 108) chooses the EVP sound, never the FM sound |
| `Evp.Scale` | audioEngine.js:254-255 | `random * (hi - lo) + lo` lies in [lo, hi] |
| `Evp.WaveIndex` | audioEngine.js:260 | the wave index drawn is a valid index into the four wave types |
| `Evp.Burst` | audioEngine.js:251-266 | exactly three oscillators; oscillator i plays (i + 1) times a base frequency drawn from the band, lasts a duration drawn from the band, and peaks at gain 0.3 / (i + 1) |
| `Evp.BurstEnvelopeInOrder` | audioEngine.js:263-285 | for every table sound, each oscillator peaks (at 0.05 s) no later than it stops and stops no later than the disconnect; higher harmonics peak lower |
| `AudioEngine.Init` | audioEngine.js:26-94 | after `init` the context is open and every node exists; nodes that existed keep their values, new ones have gain 1, mix 0.5, delay 0.3; the noise is untouched |
| `AudioEngine.InitIdempotent` | audioEngine.js:26-94 | a second `init` changes nothing |
| `AudioEngine.GenerateNoise` | audioEngine.js:134-171 | noise and modulator are running afterwards; a modulator that was running is dropped without being stopped and counts as one more stray; nothing else changes |
| `AudioEngine.WetLevel` | audioEngine.js:116 | the wet level is the mix clamped to [0, 1] |
| `AudioEngine.SetMix` | audioEngine.js:115-120 | wet is the clamped mix, dry is 1 - wet, dry lies in [0, 1], and nothing else changes |
| `AudioEngine.SetDelay` | audioEngine.js:122-124 | the delay time is written only when a delay node exists; every other node is kept |
| `AudioEngine.SetEffectsSettings` | audioEngine.js:114-126 | throws exactly when the context is gone and a mix pair or delay node exists; otherwise it sets the mix only when both mix gains exist and the delay only when the delay node exists, with 0.5 / 0.3 for absent settings, and nothing else changes |
| `AudioEngine.MixSumsToOne` | audioEngine.js:116-117 | after setting the mix, wet and dry are both in [0, 1] and sum to 1 |
| `AudioEngine.SetVolume` | audioEngine.js:128-132 | the gain becomes value / 100 when the gain node exists and nothing happens without it; it throws when the gain node exists but the context is gone |
| `AudioEngine.VolumeInUnitRange` | audioEngine.js:130 | with a context, a slider value in [0, 100] gives a gain in [0, 1] |
| `AudioEngine.StopNoise` | audioEngine.js:192-203 | the referenced noise and modulator are stopped; the strays and everything else are unchanged |
| `AudioEngine.StopNoiseIdempotent` | audioEngine.js:134-203 | stopping twice equals stopping once; stopping after a fresh start equals stopping without it when no modulator was running, and otherwise leaves one more stray |
| `AudioEngine.Cleanup` | audioEngine.js:289-303 | context, noise and modulator are cleared and closing the context silences the strays; the other node references stay |
| `AudioEngine.CleanupLeavesStaleNodes` | audioEngine.js:289-303 | after cleanup a volume change throws when a gain node exists; a new `init` reopens the context with the old gain |
| `AudioEngine.SumOfSquares` | audioEngine.js:211 | the sum of squares of n bytes is at most n·255², and 0 exactly when every byte is 0 |
| `AudioEngine.DecibelLevel` | audioEngine.js:205-218 | -Infinity exactly when there is no analyser; otherwise in [-100, 0]; -100 for a silent frame |
| `AudioEngine.LouderReadsHigher` | audioEngine.js:211-217 | with a monotone logarithm, a frame with a larger sum of squares never reads lower |
| `AudioEngine.Normalize` | audioEngine.js:230 | a sample scaled by 1.5 and clamped lies in [-1, 1] and is 1.5x when that is inside |
| `AudioEngine.GetWaveformData` | audioEngine.js:220-234 | null exactly without a waveform analyser; otherwise min(200, n) values, each the normalized sample at that index and in [-1, 1] |
| `SpiritBox.InitialInvariant` | spiritBox.js:5-99 | the constructed box satisfies the invariant: a valid tuner, a 30-reading history in range, at most ten log entries, distinct words |
| `SpiritBox.FireEvp` | spiritBox.js:477-488 | an EVP stamps the cooldown clock, plays the burst of the sound the frequency selects, keeps an open engine and otherwise reopens it with `init`, logs a phrase, and keeps the invariant |
| `SpiritBox.SweepTick` | spiritBox.js:412-436 | a sweep tick sweeps, fires an EVP exactly when the cooldown gate passes, and then gives exactly `FireEvp` of the swept box; it changes nothing else without one, and keeps the invariant |
| `SpiritBox.MeterTick` | spiritBox.js:598-637 | a meter tick feeds the engine's reading into the meter; it fires an EVP exactly when smoothed > -20 and the gate passes, and then gives exactly `FireEvp` of the box with the new meter; it changes only the meter without one, and keeps the invariant |
| `SpiritBox.NoEvpWithinCooldown` | spiritBox.js:433-435 | neither a sweep tick nor a meter tick fires within 2000 ms of the last EVP |
| `SpiritBox.SweepTicksRespectCooldown` | spiritBox.js:433-478 | of two sweep ticks less than 2000 ms apart, at most one fires an EVP |
| `SpiritBox.SwitchOn` | spiritBox.js:352-354 | `init`, `setVolume` and `generateNoise` leave the engine ready, with noise and modulator running, gain volume / 100, and the reverb mix and delay that `init` leaves; a modulator that was running becomes a stray |
| `SpiritBox.TogglePower` | spiritBox.js:346-373 | switching on leaves the engine `SwitchOn` builds (ready, noise running, gain volume / 100), unless `init` rejects, which leaves the box as it was; power ends on only when the start completes; switching off resets the meter and gives the engine `stopNoise` leaves; the invariant is kept |
| `SpiritBox.RecognitionFailureKeepsEngine` | spiritBox.js:351-372 | when the recognizer's `start` throws, the catch only resets power: the box is the one a completed start leaves, with power off |
| `SpiritBox.PowerCycleLeavesNoStray` | spiritBox.js:346-373 | switching on and then off from a silent engine leaves power off and no noise, modulator or stray running |
| `SpiritBox.RestartAfterRecognitionFailureLeaks` | spiritBox.js:346-373 | after a throwing recognizer, switching on and off again leaves power off with one modulator still running, because `generateNoise` replaces the running one without stopping it |
| `SpiritBox.VolumeInput` | spiritBox.js:174-176 | the slider sets the gain to value / 100 when a gain node exists, throws after cleanup, and changes nothing else |
| `SpiritBox.EffectsInput` | spiritBox.js:511-518 | the reverb percentage / 100 becomes the clamped wet level and the delay ms / 1000 the delay time, on the nodes that exist |
| `SpiritBox.Cleanup` | spiritBox.js:825-834 | cleanup resets the meter, gives the engine `AudioEngine.Cleanup` leaves (no context, noise or modulator, the stale nodes kept), leaves the power flag, log and words, and keeps the invariant |
| `SpiritBox.ApplyResult` | spiritBox.js:525-550 | an interim result changes nothing; a final one records the trimmed transcript in the tally and logs it; tuner, meter and engine are untouched |
| `SpiritBox.HandleSpeechResult` | spiritBox.js:520-552 | the loop applies the results from `resultIndex` on, in order, and none when the index is past the end |
| `SpiritBox.ResultsLogged` | spiritBox.js:529-549 | each final result adds one log entry, up to ten in all |
| `SpiritBox.ResultsKeepInvariant` | spiritBox.js:520-552 | handling speech results keeps the invariant and leaves tuner, meter and engine alone |
| `SpiritBox.InterimResultsIgnored` | spiritBox.js:529 | results that are not final change nothing |

## Left out

- DOM and view code is not modelled. This includes element lookup, classes, styles, ghost trails, speed labels, canvas drawing, and the display formatting with `toFixed` and `Math.round`. It has no behaviour beyond presentation.
- The step field written back by `handleBandChange` (spiritBox.js:298) is a DOM write and is not modelled. The parsed field values are arguments of the handlers instead.
- Timer scheduling is not modelled: `setInterval`, `setTimeout` and `requestAnimationFrame`, and the filter-modulation loop. Each tick is an explicit call, and sweep restarts are only counted.
- The peak-hold timer that resets the peak after 2000 ms is not modelled. It is a timer callback.
- The EVP handler is one atomic step. `triggerEVP` awaits `generateEVP` before logging, and other ticks could run in between. That interleaving is not modelled, because the model is sequential.
- The Web Audio graph is not modelled: node creation, connections and disconnections, the reverb impulse and noise buffers, `createReverb`, context suspension and resumption, and the media-stream destination. These are platform calls. Only node presence and gain/delay values are kept.
- The modulator's audio-rate effect on the gain parameter is not modelled. This is signal processing, not state.
- The analyser reads (`getByteFrequencyData`, `getFloatTimeDomainData`) become arguments. They are the audio input.
- `Math.random()` becomes `Draw` arguments in [0, 1). The random graph bars and the signal-strength meter are cosmetic and are dropped.
- The values of `Math.log10` and `Math.sqrt` are not modelled. The logarithm is an argument that is at most 0 on (0, 1], and 20·log10(rms/255) is written as 10·log10(mean square / 255²), which is the same real.
- Floating-point rounding is not modelled. Numbers are mathematical reals.
- Plus and minus Infinity from `parseFloat` are not modelled. Only NaN is kept, because NaN is what a blank or malformed field gives.
- Whitespace outside ASCII, and case mapping outside ASCII, in `trim`, `\s` and `toLowerCase` are not modelled. Strings are plain character sequences without a Unicode database.
- AudioEngine.GenerateNoise: an old noise source it replaces is disconnected but never stopped, so it keeps running silently. It is not counted, since nothing reaches the output through it; only the strays are.
- SpiritBox.TogglePower: an `init` that throws after creating some of its nodes is modelled as rejecting before it changes anything. Only the failure of the audio context itself is modelled, since node creation on an open context is a platform call. The sweep and meter timers that a throwing recognizer leaves running with power off are not modelled, since timers are not.
- `togglePower` sets power on and then awaits `init`. A tick, toggle or slider event handled during that wait sees power on and the engine not yet ready. That interleaving is not modelled, because the model is sequential.
- The speech recognition API wiring and its start/stop calls are not modelled. Speech results are arguments.
- AudioEngine.DecibelLevel: requires the analyser's frame to have its fixed 1024 bins. The division by zero of an empty frame cannot arise.
- Words.SortByCount: does not state that entries with equal counts keep their tally order, as JavaScript's stable `sort` guarantees; the insertion sort keeps that order, but no lemma states it.
- Words.WordCloud: does not state the order among equal counts in its contract. The stable insertion order is built into `Words.SortByCount`, but no lemma states it.

=== FILE: audio.dfy ===
/** The audio engine as the spirit box drives it: which nodes exist, the
values of the gains and of the delay time, the noise source, and the pure
arithmetic of the decibel reading and of the waveform data.

The Web Audio graph itself (connections, buffers, scheduling) is not
modelled: a node is present or absent, and a gain or delay node carries its
current value. The audio context is present (and open) or absent; `cleanup`
closes it and clears the reference but leaves the other node references in
place, so a later call that reads `context.currentTime` through one of them
throws a TypeError, which is modelled as `None`.
 */
module AudioEngine {
  import opened Numbers

  /** The node references of the engine that the modelled operations read
      or write. `gain`, `wetGain`, `dryGain` and `delayTime` are absent
      (`None`) or hold the value of the node's parameter. `strays` counts
      the modulators `generateNoise` dropped without stopping them: each
      keeps running and keeps modulating the master gain. */
  datatype Engine = Engine(
    context: bool,
    noise: bool,
    modulator: bool,
    gain: Option<real>,
    wetGain: Option<real>,
    dryGain: Option<real>,
    delayTime: Option<real>,
    filter: bool,
    reverb: bool,
    analyser: bool,
    waveformAnalyser: bool,
    strays: nat)

  /** The engine as the constructor leaves it: every reference null. */
  const Fresh := Engine(false, false, false, None, None, None, None, false, false, false, false, 0)

  /** Initial values of the nodes `init` creates (a new gain node has gain 1). */
  const DefaultMix := 0.5
  const DefaultGain := 1.0
  const DefaultDelayTime := 0.3

  /** Every node `init` creates is present and the context is open. */
  predicate Ready(e: Engine) {
    && e.context && e.gain.Some? && e.wetGain.Some? && e.dryGain.Some? && e.delayTime.Some?
    && e.filter && e.reverb && e.analyser && e.waveformAnalyser
  }

  function OrDefault(o: Option<real>, d: real): real {
    match o
    case Some(v) => v
    case None => d
  }

  /** `init`: open a context when there is none, and create each node that
      is missing with its initial value; nodes that exist keep their value. */
  function Init(e: Engine): (r: Engine)
    ensures Ready(r)
    ensures r.noise == e.noise && r.modulator == e.modulator && r.strays == e.strays
    ensures e.gain.Some? ==> r.gain == e.gain
    ensures e.wetGain.Some? ==> r.wetGain == e.wetGain
    ensures e.dryGain.Some? ==> r.dryGain == e.dryGain
    ensures e.delayTime.Some? ==> r.delayTime == e.delayTime
    ensures e.gain.None? ==> r.gain == Some(DefaultGain)
    ensures e.wetGain.None? ==> r.wetGain == Some(DefaultMix)
    ensures e.dryGain.None? ==> r.dryGain == Some(DefaultMix)
    ensures e.delayTime.None? ==> r.delayTime == Some(DefaultDelayTime)
  {
    e.(context := true,
       gain := Some(OrDefault(e.gain, DefaultGain)),
       wetGain := Some(OrDefault(e.wetGain, DefaultMix)),
       dryGain := Some(OrDefault(e.dryGain, DefaultMix)),
       delayTime := Some(OrDefault(e.delayTime, DefaultDelayTime)),
       filter := true, reverb := true, analyser := true, waveformAnalyser := true)
  }

  /** A second `init` changes nothing. */
  lemma InitIdempotent(e: Engine)
    ensures Init(Init(e)) == Init(e)
  {
  }

  /** `generateNoise`, which the spirit box calls right after `init`: a new
      noise source and modulator take the place of the old references. The
      old noise source is only disconnected, so it is silent; the old
      modulator is neither stopped nor disconnected, so it becomes a stray. */
  function GenerateNoise(e: Engine): (r: Engine)
    requires Ready(e)
    ensures r.noise && r.modulator && Ready(r)
    ensures e.modulator ==> r.strays == e.strays + 1
    ensures !e.modulator ==> r.strays == e.strays
    ensures r.(noise := e.noise, modulator := e.modulator, strays := e.strays) == e
  {
    e.(noise := true, modulator := true, strays := e.strays + (if e.modulator then 1 else 0))
  }

  /** The argument of `setEffectsSettings`; an absent field takes its
      default. */
  datatype EffectsSettings = EffectsSettings(reverbMix: Option<real>, delayTime: Option<real>)

  const DefaultReverbMix := 0.5

  /** The wet level of a reverb mix: the mix clamped into [0, 1]. */
  function WetLevel(reverbMix: real): (w: real)
    ensures 0.0 <= w <= 1.0
    ensures 0.0 <= reverbMix <= 1.0 ==> w == reverbMix
    ensures reverbMix < 0.0 ==> w == 0.0
    ensures 1.0 < reverbMix ==> w == 1.0
  {
    Clamp(reverbMix, 0.0, 1.0)
  }

  /** `a` and `b` agree on every node but the mix gains and the delay. */
  predicate SameBesidesEffects(a: Engine, b: Engine) {
    && a.context == b.context && a.noise == b.noise && a.modulator == b.modulator
    && a.gain == b.gain && a.filter == b.filter && a.reverb == b.reverb
    && a.analyser == b.analyser && a.waveformAnalyser == b.waveformAnalyser
    && a.strays == b.strays
  }

  /** The mix write of `setEffectsSettings`: wet gain to the clamped mix,
      dry gain to the rest. */
  function SetMix(e: Engine, reverbMix: real): (r: Engine)
    ensures r.wetGain.Some? && r.dryGain.Some?
    ensures r.wetGain.value == WetLevel(reverbMix)
    ensures r.dryGain.value + r.wetGain.value == 1.0 && 0.0 <= r.dryGain.value <= 1.0
    ensures SameBesidesEffects(r, e) && r.delayTime == e.delayTime
  {
    var wet := WetLevel(reverbMix);
    e.(wetGain := Some(wet), dryGain := Some(1.0 - wet))
  }

  /** `setEffectsSettings`. With both mix gains present it sets the mix;
      with a delay node it sets the delay time. Each write reads
      `context.currentTime`, so it fails when the context has been
      cleared. */
  function SetEffectsSettings(e: Engine, s: EffectsSettings): (r: Option<Engine>)
    ensures r.None? <==> !e.context && ((e.wetGain.Some? && e.dryGain.Some?) || e.delayTime.Some?)
    ensures r.Some? ==> SameBesidesEffects(r.value, e)
    ensures r.Some? && e.wetGain.Some? && e.dryGain.Some? ==>
      && r.value.wetGain == Some(WetLevel(OrDefault(s.reverbMix, DefaultReverbMix)))
      && r.value.dryGain == Some(1.0 - WetLevel(OrDefault(s.reverbMix, DefaultReverbMix)))
    ensures r.Some? && !(e.wetGain.Some? && e.dryGain.Some?) ==>
      r.value.wetGain == e.wetGain && r.value.dryGain == e.dryGain
    ensures r.Some? && e.delayTime.Some? ==> r.value.delayTime == Some(OrDefault(s.delayTime, DefaultDelayTime))
    ensures r.Some? && e.delayTime.None? ==> r.value.delayTime == None
  {
    var mixes := e.wetGain.Some? && e.dryGain.Some?;
    var mix := OrDefault(s.reverbMix, DefaultReverbMix);
    var time := OrDefault(s.delayTime, DefaultDelayTime);
    if !e.context && (mixes || e.delayTime.Some?) then None
    else Some(SetDelay(if mixes then SetMix(e, mix) else e, time))
  }

  /** The delay write of `setEffectsSettings`, on a delay node that exists. */
  function SetDelay(e: Engine, time: real): (r: Engine)
    ensures SameBesidesEffects(r, e) && r.wetGain == e.wetGain && r.dryGain == e.dryGain
    ensures r.delayTime == if e.delayTime.Some? then Some(time) else None
  {
    if e.delayTime.Some? then e.(delayTime := Some(time)) else e
  }

  /** The mix gains `setEffectsSettings` leaves both lie in [0, 1] and sum
      to 1. */
  lemma MixSumsToOne(e: Engine, s: EffectsSettings)
    requires SetEffectsSettings(e, s).Some? && e.wetGain.Some? && e.dryGain.Some?
    ensures SetEffectsSettings(e, s).value.wetGain.Some? && SetEffectsSettings(e, s).value.dryGain.Some?
    ensures SetEffectsSettings(e, s).value.wetGain.value + SetEffectsSettings(e, s).value.dryGain.value == 1.0
    ensures 0.0 <= SetEffectsSettings(e, s).value.wetGain.value <= 1.0
    ensures 0.0 <= SetEffectsSettings(e, s).value.dryGain.value <= 1.0
  {
  }

  /** `setVolume(value)`: the gain becomes `value / 100` when the gain node
      exists; nothing happens when it does not. */
  function SetVolume(e: Engine, value: real): (r: Option<Engine>)
    ensures r.None? <==> e.gain.Some? && !e.context
    ensures r.Some? ==> r.value.(gain := e.gain) == e
    ensures r.Some? ==> (r.value.gain.Some? <==> e.gain.Some?)
    ensures r.Some? && r.value.gain.Some? ==> r.value.gain.value * 100.0 == value
  {
    if e.gain.None? then Some(e)
    else if !e.context then None
    else Some(e.(gain := Some(value / 100.0)))
  }

  /** A slider value in [0, 100] gives a gain in [0, 1]. */
  lemma VolumeInUnitRange(e: Engine, value: real)
    requires 0.0 <= value <= 100.0 && e.context
    ensures SetVolume(e, value).Some?
    ensures SetVolume(e, value).value.gain.Some? ==> 0.0 <= SetVolume(e, value).value.gain.value <= 1.0
  {
  }

  /** `stopNoise`: stop and drop the noise source and the modulator that
      the engine still references; strays are out of its reach. */
  function StopNoise(e: Engine): (r: Engine)
    ensures !r.noise && !r.modulator
    ensures r.(noise := e.noise, modulator := e.modulator) == e
  {
    e.(noise := false, modulator := false)
  }

  /** Stopping twice is stopping once. A fresh noise source is stopped like
      the old one, except that a modulator it replaced while running is left
      running as a stray. */
  lemma StopNoiseIdempotent(e: Engine)
    ensures StopNoise(StopNoise(e)) == StopNoise(e)
    ensures Ready(e) && !e.modulator ==> StopNoise(GenerateNoise(e)) == StopNoise(e)
    ensures Ready(e) && e.modulator ==>
      StopNoise(GenerateNoise(e)) == StopNoise(e).(strays := e.strays + 1)
  {
  }

  /** `cleanup`: stop the noise and close and clear the context. Closing
      the context silences every source in it, the strays included. The
      other node references are disconnected but not cleared. */
  function Cleanup(e: Engine): (r: Engine)
    ensures !r.context && !r.noise && !r.modulator && r.strays == 0
    ensures r.(context := e.context, noise := e.noise, modulator := e.modulator, strays := e.strays) == e
  {
    StopNoise(e).(context := false, strays := 0)
  }

  /** After `cleanup` the volume slider throws once the gain node exists,
      and a new `init` reopens the context with the old gain values. */
  lemma CleanupLeavesStaleNodes(e: Engine, value: real)
    ensures e.gain.Some? ==> SetVolume(Cleanup(e), value).None?
    ensures Init(Cleanup(e)).gain == Init(e).gain
    ensures Init(Cleanup(e)).context && !Init(Cleanup(e)).noise
  {
  }

  // ---------------------------------------------------------------------
  // decibel reading

  /** The frequency bin count of an analyser with `fftSize` 2048. */
  const BinCount := 1024
  const ByteMax := 255

  function Square(b: byte): nat { (b as int) * (b as int) }

  /** `dataArray.reduce((acc, value) => acc + value * value, 0)`. */
  function SumOfSquares(frame: seq<byte>): (r: nat)
    ensures r <= |frame| * ByteMax * ByteMax
    ensures r == 0 <==> forall i :: 0 <= i < |frame| ==> frame[i] == 0
  {
    if |frame| == 0 then 0
    else
      assert Square(frame[0]) <= ByteMax * ByteMax by {
        assert frame[0] as int <= ByteMax;
      }
      Square(frame[0]) + SumOfSquares(frame[1..])
  }

  /** A decimal logarithm that is at most 0 on (0, 1]. */
  ghost predicate LogBound(log10: real -> real) {
    forall x :: 0.0 < x <= 1.0 ==> log10(x) <= 0.0
  }

  /** The mean square of a frame relative to full scale, `(rms / 255)^2`. */
  function Power(frame: seq<byte>): (p: real)
    requires |frame| > 0
    ensures 0.0 <= p <= 1.0
    ensures p == 0.0 <==> SumOfSquares(frame) == 0
  {
    var n := |frame| as real;
    var full := (ByteMax * ByteMax) as real;
    var s := SumOfSquares(frame) as real;
    RatioBounds(s, n, full);
    s / n / full
  }

  lemma RatioBounds(s: real, n: real, full: real)
    requires n > 0.0 && full > 0.0 && 0.0 <= s <= n * full
    ensures 0.0 <= s / n / full <= 1.0
    ensures s / n / full == 0.0 <==> s == 0.0
  {
    assert s / n <= full by {
      assert n * full / n == full;
    }
  }

  /** `getDecibelLevel` on the analyser's byte frequency data `frame`.
      `20 * log10(rms / 255)` is written as `10 * log10((rms / 255)^2)`, the
      same real; the logarithm is a parameter. A silent frame has rms 0,
      whose logarithm is -Infinity, so the clamp gives -100. */
  function DecibelLevel(e: Engine, frame: seq<byte>, log10: real -> real): (r: Level)
    requires e.analyser ==> |frame| == BinCount
    requires LogBound(log10)
    ensures !e.analyser <==> r.MinusInfinity?
    ensures r.Db? ==> MinDecibels <= r.v <= 0.0
    ensures e.analyser && (forall i :: 0 <= i < |frame| ==> frame[i] == 0) ==> r == Db(MinDecibels)
  {
    if !e.analyser then MinusInfinity
    else
      var p := Power(frame);
      if p == 0.0 then Db(MinDecibels)
      else Db(Max(MinDecibels, 10.0 * log10(p)))
  }

  /** With a monotone logarithm, a frame with more energy never reads
      lower. */
  lemma LouderReadsHigher(e: Engine, quiet: seq<byte>, loud: seq<byte>, log10: real -> real)
    requires e.analyser && |quiet| == BinCount && |loud| == BinCount && LogBound(log10)
    requires forall x, y :: 0.0 < x <= y ==> log10(x) <= log10(y)
    requires SumOfSquares(quiet) <= SumOfSquares(loud)
    ensures DecibelLevel(e, quiet, log10).v <= DecibelLevel(e, loud, log10).v
  {
    var n := BinCount as real;
    var full := (ByteMax * ByteMax) as real;
    var q := SumOfSquares(quiet) as real;
    var l := SumOfSquares(loud) as real;
    assert q / n / full <= l / n / full by {
      assert q / n <= l / n;
    }
  }

  // ---------------------------------------------------------------------
  // waveform data

  const WaveformLength := 200

  /** One sample of `getWaveformData`: scaled by 1.5 and clamped to [-1, 1]. */
  function Normalize(x: real): (y: real)
    ensures -1.0 <= y <= 1.0
    ensures -1.0 <= 1.5 * x <= 1.0 ==> y == 1.5 * x
    ensures 1.5 * x > 1.0 ==> y == 1.0
    ensures 1.5 * x < -1.0 ==> y == -1.0
  {
    Clamp(x * 1.5, -1.0, 1.0)
  }

  /** `getWaveformData` on the analyser's time-domain data `samples`: null
      without a waveform analyser, else the first 200 samples normalized. */
  method GetWaveformData(e: Engine, samples: seq<real>) returns (r: Option<seq<real>>)
    ensures r.None? <==> !e.waveformAnalyser
    ensures r.Some? ==> |r.value| == if |samples| < WaveformLength then |samples| else WaveformLength
    ensures r.Some? ==> forall i :: 0 <= i < |r.value| ==> r.value[i] == Normalize(samples[i])
    ensures r.Some? ==> forall i :: 0 <= i < |r.value| ==> -1.0 <= r.value[i] <= 1.0
  {
    if !e.waveformAnalyser {
      return None;
    }
    var n := if |samples| < WaveformLength then |samples| else WaveformLength;
    var out: seq<real> := [];
    var i := 0;
    while i < n
      invariant 0 <= i <= n
      invariant |out| == i
      invariant forall k :: 0 <= k < i ==> out[k] == Normalize(samples[k])
    {
      out := out + [Normalize(samples[i])];
      i := i + 1;
    }
    return Some(out);
  }
}

=== FILE: eventlog.dfy ===
/** The EVP event log: new entries go in front, and the log keeps at most
ten entries, dropping the oldest (the last child of the log element).

Both `logEvp` and `logEvpTranscription` insert before the first child and
then remove the last child while there are more than ten. The wall-clock
time string of an entry is a parameter.
 */
module EventLog {
  import opened Numbers

  const MaxEntries := 10

  const EvpPhrases: seq<string> := [
    "Unknown voice detected",
    "Possible EVP captured",
    "Signal anomaly recorded",
    "Frequency disturbance",
    "Spirit communication attempt"
  ]

  datatype Entry =
    | EvpEntry(time: string, phrase: string)
    | TranscriptionEntry(time: string, transcript: string, confidence: real)

  /** The `while (children.length > 10) removeChild(lastChild)` loop. */
  function KeepNewest(log: seq<Entry>): (r: seq<Entry>)
    ensures r == log[..MinInt(|log|, MaxEntries)]
  {
    if |log| > MaxEntries then KeepNewest(log[..|log| - 1]) else log
  }

  /** Insert `e` before the first entry and cap the log. */
  function Prepend(log: seq<Entry>, e: Entry): (r: seq<Entry>)
    ensures |r| == MinInt(|log| + 1, MaxEntries)
    ensures r[0] == e
    ensures r[1..] == log[..MinInt(|log|, MaxEntries - 1)]
  {
    KeepNewest([e] + log)
  }

  /** The newest entry comes first, the one before it second. */
  lemma NewestFirst(log: seq<Entry>, a: Entry, b: Entry)
    ensures Prepend(Prepend(log, a), b)[0] == b
    ensures Prepend(Prepend(log, a), b)[1] == a
    ensures |Prepend(Prepend(log, a), b)| <= MaxEntries
  {
    assert Prepend(Prepend(log, a), b)[1..][0] == Prepend(log, a)[0];
  }

  /** `Math.floor(Math.random() * evpPhrases.length)`. */
  function PhraseIndex(d: Draw): (i: nat)
    ensures i < |EvpPhrases|
  {
    (d * (|EvpPhrases| as real)).Floor
  }

  /** `logEvp`: a random phrase, stamped with the time. */
  function LogEvp(log: seq<Entry>, time: string, d: Draw): (r: seq<Entry>)
    ensures |r| == MinInt(|log| + 1, MaxEntries)
    ensures r[0].EvpEntry? && r[0].time == time && r[0].phrase in EvpPhrases
    ensures r[1..] == log[..MinInt(|log|, MaxEntries - 1)]
  {
    Prepend(log, EvpEntry(time, EvpPhrases[PhraseIndex(d)]))
  }

  /** `logEvpTranscription`. */
  function LogTranscription(log: seq<Entry>, time: string, transcript: string, confidence: real): (r: seq<Entry>)
    ensures |r| == MinInt(|log| + 1, MaxEntries)
    ensures r[0] == TranscriptionEntry(time, transcript, confidence)
    ensures r[1..] == log[..MinInt(|log|, MaxEntries - 1)]
  {
    Prepend(log, TranscriptionEntry(time, transcript, confidence))
  }
}

=== FILE: evp.dfy ===
/** The EVP burst of the audio engine: the sound table, the choice of a
sound for the tuned frequency, and the parameters of the three oscillators
of one burst. The random draws of a burst are parameters.
 */
module Evp {
  import opened Numbers

  datatype Kind = EvpKind | GhostKind | AmKind | FmKind

  /** An entry of `evpSounds`: a frequency interval, a duration interval in
      milliseconds, and a type. */
  datatype Sound = Sound(freqLow: real, freqHigh: real, durationLow: real, durationHigh: real, kind: Kind)

  const Sounds: seq<Sound> := [
    Sound(100.0, 300.0, 50.0, 150.0, EvpKind),
    Sound(400.0, 800.0, 100.0, 200.0, GhostKind),
    Sound(520.0, 1710.0, 75.0, 175.0, AmKind),
    Sound(87500.0, 108000.0, 50.0, 100.0, FmKind)
  ]

  /** `currentFreq >= sound.freq[0] && currentFreq <= sound.freq[1]`, false
      for NaN. */
  predicate Matches(s: Sound, f: Number) {
    f.Finite? && s.freqLow <= f.v <= s.freqHigh
  }

  /** `sounds.find(...)`: the index of the first matching entry. */
  function Find(sounds: seq<Sound>, f: Number): (r: Option<nat>)
    ensures r.Some? ==> r.value < |sounds| && Matches(sounds[r.value], f)
    ensures r.Some? ==> forall j :: 0 <= j < r.value ==> !Matches(sounds[j], f)
    ensures r.None? ==> forall j :: 0 <= j < |sounds| ==> !Matches(sounds[j], f)
  {
    if |sounds| == 0 then None
    else if Matches(sounds[0], f) then Some(0)
    else match Find(sounds[1..], f)
      case None => None
      case Some(i) => Some(i + 1)
  }

  /** The sound of a burst: the first match, or the first entry. */
  function Select(f: Number): (r: Sound)
    ensures r in Sounds
  {
    match Find(Sounds, f)
    case Some(i) => Sounds[i]
    case None => Sounds[0]
  }

  /** The selected sound is the first one whose interval contains the
      frequency, and the first entry when none does. */
  lemma SelectIsFirstMatch(f: Number, i: nat)
    requires i < |Sounds| && Matches(Sounds[i], f)
    requires forall j :: 0 <= j < i ==> !Matches(Sounds[j], f)
    ensures Select(f) == Sounds[i]
  {
    var r := Find(Sounds, f);
    if r.Some? {
      assert !(r.value < i) && !(i < r.value);
    }
  }

  lemma SelectFallsBack(f: Number)
    requires forall j :: 0 <= j < |Sounds| ==> !Matches(Sounds[j], f)
    ensures Select(f) == Sounds[0]
  {
  }

  /** The ghost interval comes before the AM one, so the overlap [520, 800]
      gives the ghost sound; above it the AM sound is chosen. */
  lemma GhostShadowsAm(f: real)
    ensures 520.0 <= f <= 800.0 ==> Select(Finite(f)).kind == GhostKind
    ensures 800.0 < f <= 1710.0 ==> Select(Finite(f)).kind == AmKind
  {
    if 520.0 <= f <= 800.0 {
      SelectIsFirstMatch(Finite(f), 1);
    } else if 800.0 < f <= 1710.0 {
      SelectIsFirstMatch(Finite(f), 2);
    }
  }

  /** The FM band is tuned in MHz while the FM sound is listed in kHz, so an
      FM-band frequency never selects the FM sound: [100, 108] MHz lies in
      the EVP interval, and the rest of the band matches nothing and falls
      back to the first entry, which is the EVP sound as well. */
  lemma FmBandFallsBack(f: real)
    requires 87.5 <= f <= 108.0
    ensures Select(Finite(f)) == Sounds[0] && Select(Finite(f)).kind == EvpKind
  {
    if 100.0 <= f {
      SelectIsFirstMatch(Finite(f), 0);
    } else {
      SelectFallsBack(Finite(f));
    }
  }

  // ---------------------------------------------------------------------
  // oscillators

  const NumOscillators := 3

  datatype Wave = Sine | Square | Triangle | Sawtooth

  const Waves: seq<Wave> := [Sine, Square, Triangle, Sawtooth]

  /** The three `Math.random()` values one oscillator draws. */
  datatype OscDraw = OscDraw(frequency: Draw, duration: Draw, wave: Draw)

  /** One oscillator of a burst: the drawn base frequency, the frequency it
      plays (a harmonic of the base), its duration in milliseconds, the
      peak of its gain envelope, and its wave type. */
  datatype Oscillator = Oscillator(base: real, frequency: real, duration: real, peakGain: real, wave: Wave)

  /** The time (s) at which the gain envelope reaches its peak. */
  const PeakTime := 0.05

  /** `Math.random() * (hi - lo) + lo`. */
  function Scale(d: Draw, lo: real, hi: real): (r: real)
    ensures lo <= hi ==> lo <= r <= hi
  {
    ScaleBounds(d, lo, hi);
    d * (hi - lo) + lo
  }

  lemma ScaleBounds(d: real, lo: real, hi: real)
    requires 0.0 <= d <= 1.0
    ensures lo <= hi ==> lo <= d * (hi - lo) + lo <= hi
  {
    if lo <= hi {
      var w := hi - lo;
      assert 0.0 <= d * w;
      assert (1.0 - d) * w >= 0.0;
    }
  }

  /** `Math.floor(Math.random() * 4)`. */
  function WaveIndex(d: Draw): (i: nat)
    ensures i < |Waves|
  {
    (d * 4.0).Floor
  }

  /** Oscillator `i` of a burst of sound `s`. */
  function MakeOscillator(s: Sound, i: nat, d: OscDraw): Oscillator {
    var base := Scale(d.frequency, s.freqLow, s.freqHigh);
    Oscillator(base, base * ((i + 1) as real), Scale(d.duration, s.durationLow, s.durationHigh),
               0.3 / ((i + 1) as real), Waves[WaveIndex(d.wave)])
  }

  /** The oscillators `generateEVP` creates for sound `s`. */
  function Burst(s: Sound, draws: seq<OscDraw>): (r: seq<Oscillator>)
    requires |draws| == NumOscillators
    ensures |r| == NumOscillators
    ensures forall i :: 0 <= i < |r| ==>
      && r[i].frequency == r[i].base * ((i + 1) as real)
      && (s.freqLow <= s.freqHigh ==> s.freqLow <= r[i].base <= s.freqHigh)
      && (s.durationLow <= s.durationHigh ==> s.durationLow <= r[i].duration <= s.durationHigh)
      && r[i].peakGain == 0.3 / ((i + 1) as real)
  {
    seq(NumOscillators, i requires 0 <= i < NumOscillators => MakeOscillator(s, i, draws[i]))
  }

  /** How long (ms) `generateEVP` waits before disconnecting the burst. */
  function DisconnectDelay(s: Sound): real {
    s.durationHigh
  }

  /** For every sound of the table the envelope is in order: each oscillator
      reaches its peak no later than it stops, and stops no later than the burst is
      disconnected. Higher harmonics are quieter. */
  lemma BurstEnvelopeInOrder(s: Sound, draws: seq<OscDraw>)
    requires s in Sounds && |draws| == NumOscillators
    ensures forall i :: 0 <= i < NumOscillators ==>
      PeakTime <= Burst(s, draws)[i].duration / 1000.0
      && Burst(s, draws)[i].duration <= DisconnectDelay(s)
    ensures forall i, j :: 0 <= i < j < NumOscillators ==>
      Burst(s, draws)[j].peakGain < Burst(s, draws)[i].peakGain
  {
    var r := Burst(s, draws);
    assert s.durationLow >= 50.0 && s.durationLow <= s.durationHigh;
    forall i, j | 0 <= i < j < NumOscillators
      ensures r[j].peakGain < r[i].peakGain
    {
      assert (i + 1) as real < (j + 1) as real;
    }
  }
}

=== FILE: meter.dfy ===
/** The decibel meter of the spirit box: a rolling history of the last 30
readings, its average (the smoothed level), the meter fill percentage, and
a peak hold.

Each tick of the 50 ms meter timer pushes the new reading and shifts out
the oldest, so the history keeps its length. A reading of -Infinity makes
the smoothed level -Infinity for as long as it stays in the history.
Stopping the meter resets the peak to -Infinity and the history to 30
readings of -100 dB.
 */
module DecibelMeter {
  import opened Numbers

  const HistoryLength := 30
  /** A smoothed level above this may set off an EVP. */
  const EvpThreshold := -20.0

  datatype Meter = Meter(history: seq<Level>, peak: Level)

  /** The meter after `stopDecibelMeter`, which is also its initial state. */
  const Stopped := Meter(Repeat(Db(MinDecibels), HistoryLength), MinusInfinity)

  /** `new Array(n).fill(x)`. */
  function Repeat(x: Level, n: nat): (r: seq<Level>)
    ensures |r| == n
    ensures forall i :: 0 <= i < n ==> r[i] == x
  {
    if n == 0 then [] else [x] + Repeat(x, n - 1)
  }

  /** `history.reduce((a, b) => a + b)`. */
  function Sum(s: seq<Level>): Level {
    if |s| == 0 then Db(0.0) else LevelAdd(s[0], Sum(s[1..]))
  }

  /** The average of the history: -Infinity while any reading is
      -Infinity, and the reading itself when all readings agree. */
  function Smoothed(history: seq<Level>): (r: Level)
    requires |history| > 0
    ensures r.MinusInfinity? <==> HasMinusInfinity(history)
    ensures (forall i :: 0 <= i < |history| ==> history[i] == history[0]) ==> r == history[0]
  {
    SumAbsorbs(history);
    SumOfConstant(history, history[0]);
    match Sum(history)
    case MinusInfinity => MinusInfinity
    case Db(v) => Db(v / (|history| as real))
  }

  /** `Math.max(0, Math.min(100, smoothed + 100))`, the meter fill. */
  function Percentage(l: Level): (p: real)
    ensures 0.0 <= p <= 100.0
    ensures l.MinusInfinity? ==> p == 0.0
    ensures InRange(l) && l.Db? ==> p == l.v - MinDecibels
  {
    match l
    case MinusInfinity => 0.0
    case Db(v) => Clamp(v + 100.0, 0.0, 100.0)
  }

  /** A reading the audio engine can report: -Infinity, or in [-100, 0]. */
  predicate InRange(l: Level) {
    l.MinusInfinity? || MinDecibels <= l.v <= 0.0
  }

  predicate AllInRange(s: seq<Level>) {
    forall i :: 0 <= i < |s| ==> InRange(s[i])
  }

  /** What one meter tick computes. `strong` is the signal-strength half of
      the EVP gate; the cooldown half belongs to the tuner. */
  datatype Reading = Reading(meter: Meter, smoothed: Level, percentage: real, strong: bool)

  /** One tick of the meter timer with the audio engine's reading `db`. */
  function Tick(m: Meter, db: Level): (r: Reading)
    requires |m.history| > 0
    ensures r.meter.history == m.history[1..] + [db]
    ensures |r.meter.history| == |m.history|
    ensures r.smoothed == Smoothed(r.meter.history)
    ensures 0.0 <= r.percentage <= 100.0
    ensures LevelAtMost(m.peak, r.meter.peak) && LevelAtMost(r.smoothed, r.meter.peak)
    ensures r.meter.peak == m.peak || r.meter.peak == r.smoothed
    ensures r.strong <==> r.smoothed.Db? && r.smoothed.v > EvpThreshold
    ensures AllInRange(m.history) && InRange(db) ==> AllInRange(r.meter.history) && InRange(r.smoothed)
  {
    var history := (m.history + [db])[1..];
    assert history == m.history[1..] + [db];
    var smoothed := Smoothed(history);
    assert AllInRange(m.history) && InRange(db) ==> AllInRange(history) && InRange(smoothed) by {
      if AllInRange(m.history) && InRange(db) {
        forall i | 0 <= i < |history| ensures InRange(history[i]) {
          if i < |history| - 1 {
            assert history[i] == m.history[i + 1];
          }
        }
        SmoothedInRange(history);
      }
    }
    var peak := if LevelAbove(smoothed, m.peak) then smoothed else m.peak;
    Reading(Meter(history, peak), smoothed, Percentage(smoothed), LevelAbove(smoothed, Db(EvpThreshold)))
  }

  /** The sum of readings in [-100, 0] lies in [-100 n, 0], or is -Infinity. */
  lemma {:induction false} SumInRange(s: seq<Level>)
    requires AllInRange(s)
    ensures Sum(s).Db? ==> MinDecibels * (|s| as real) <= Sum(s).v <= 0.0
  {
    if |s| > 0 {
      assert AllInRange(s[1..]) by {
        forall i | 0 <= i < |s[1..]| ensures InRange(s[1..][i]) {
          assert s[1..][i] == s[i + 1];
        }
      }
      SumInRange(s[1..]);
      assert InRange(s[0]);
    }
  }

  /** The average of readings in range is in range. */
  lemma SmoothedInRange(history: seq<Level>)
    requires |history| > 0 && AllInRange(history)
    ensures InRange(Smoothed(history))
  {
    SumInRange(history);
    if Sum(history).Db? {
      AverageInRange(Sum(history).v, |history| as real);
    }
  }

  lemma AverageInRange(v: real, n: real)
    requires n > 0.0 && MinDecibels * n <= v <= 0.0
    ensures MinDecibels <= v / n <= 0.0
  {
    assert MinDecibels * n / n == MinDecibels;
  }

  /** A run of ticks. */
  function Ticks(m: Meter, dbs: seq<Level>): (r: Meter)
    requires |m.history| > 0
    ensures |r.history| == |m.history|
    decreases |dbs|
  {
    if |dbs| == 0 then m else Ticks(Tick(m, dbs[0]).meter, dbs[1..])
  }

  /** While the meter runs the peak only rises. */
  lemma {:induction false} PeakOnlyRises(m: Meter, dbs: seq<Level>)
    requires |m.history| > 0
    ensures LevelAtMost(m.peak, Ticks(m, dbs).peak)
    decreases |dbs|
  {
    if |dbs| > 0 {
      var next := Tick(m, dbs[0]).meter;
      PeakOnlyRises(next, dbs[1..]);
    }
  }

  /** A run of ticks whose readings are all in range keeps the history in
      range. */
  lemma {:induction false} HistoryStaysInRange(m: Meter, dbs: seq<Level>)
    requires |m.history| > 0 && AllInRange(m.history)
    requires forall i :: 0 <= i < |dbs| ==> InRange(dbs[i])
    ensures AllInRange(Ticks(m, dbs).history)
    decreases |dbs|
  {
    if |dbs| > 0 {
      HistoryStaysInRange(Tick(m, dbs[0]).meter, dbs[1..]);
    }
  }

  lemma StoppedIsReset()
    ensures |Stopped.history| == HistoryLength && AllInRange(Stopped.history)
    ensures Stopped.peak == MinusInfinity
    ensures Smoothed(Stopped.history) == Db(MinDecibels)
  {
    SumOfConstant(Stopped.history, Db(MinDecibels));
  }

  predicate HasMinusInfinity(s: seq<Level>) {
    exists i :: 0 <= i < |s| && s[i].MinusInfinity?
  }

  /** -Infinity is absorbing in the sum. */
  lemma {:induction false} SumAbsorbs(s: seq<Level>)
    ensures Sum(s).MinusInfinity? <==> HasMinusInfinity(s)
  {
    if |s| > 0 {
      SumAbsorbs(s[1..]);
      if s[0].Db? {
        forall i | 0 <= i < |s[1..]| ensures s[1..][i] == s[i + 1] {}
      }
    }
  }

  /** The sum of n equal readings. */
  lemma {:induction false} SumOfConstant(s: seq<Level>, x: Level)
    ensures (forall i :: 0 <= i < |s| ==> s[i] == x) && x.Db? ==> Sum(s) == Db(x.v * (|s| as real))
  {
    if |s| > 0 && forall i :: 0 <= i < |s| ==> s[i] == x {
      assert forall i :: 0 <= i < |s[1..]| ==> s[1..][i] == x by {
        forall i | 0 <= i < |s[1..]| ensures s[1..][i] == x {
          assert s[1..][i] == s[i + 1];
        }
      }
      SumOfConstant(s[1..], x);
    }
  }
}

=== FILE: numbers.dfy ===
/** Numeric values as the spirit box code sees them.

JavaScript numbers are modelled as mathematical reals. Two special values
matter to the code and are kept explicitly: NaN (what `parseFloat` returns
for a blank or malformed input field, and what arithmetic with NaN yields),
and -Infinity (what the decibel reading is when there is no analyser, and
the reset value of the peak hold).
 */
module Numbers {

  /** A JavaScript number that is a finite real or NaN. */
  datatype Number = NaN | Finite(v: real)

  /** A decibel value: a finite real or -Infinity. */
  datatype Level = MinusInfinity | Db(v: real)

  /** The lowest decibel reading the audio engine reports, and the reset
      value of the meter history. */
  const MinDecibels := -100.0

  /** An element of a `Uint8Array`. */
  newtype byte = x: int | 0 <= x < 256

  /** A value of `Math.random()`. */
  type Draw = r: real | 0.0 <= r < 1.0

  datatype Option<T> = None | Some(value: T)

  function Min(a: real, b: real): real { if a <= b then a else b }

  /** `Min` on integers, for lengths and slice bounds. */
  function MinInt(a: int, b: int): int { if a <= b then a else b }

  function Max(a: real, b: real): real { if a <= b then b else a }

  /** Clamping of `x` into `[lo, hi]`; the code writes it both as
      `Math.min(Math.max(x, lo), hi)` and as `Math.max(lo, Math.min(hi, x))`. */
  function Clamp(x: real, lo: real, hi: real): (r: real)
    requires lo <= hi
    ensures lo <= r <= hi
    ensures lo <= x <= hi ==> r == x
    ensures r == Min(Max(x, lo), hi) && r == Max(lo, Min(hi, x))
  {
    if x < lo then lo else if hi < x then hi else x
  }

  /** JavaScript `a + b`: NaN is absorbing. */
  function Add(a: Number, b: Number): (r: Number)
    ensures r.Finite? <==> a.Finite? && b.Finite?
    ensures r.Finite? ==> r.v == a.v + b.v
  {
    if a.Finite? && b.Finite? then Finite(a.v + b.v) else NaN
  }

  /** JavaScript `a > x` for a number `a` and a finite `x`: false for NaN. */
  predicate Above(a: Number, x: real) {
    a.Finite? && a.v > x
  }

  /** JavaScript `a > b` on decibel values. */
  predicate LevelAbove(a: Level, b: Level) {
    a.Db? && (b.MinusInfinity? || a.v > b.v)
  }

  /** `a <= b` on decibel values (-Infinity is the least value). */
  predicate LevelAtMost(a: Level, b: Level) {
    a.MinusInfinity? || (b.Db? && a.v <= b.v)
  }

  /** JavaScript `a + b` on decibel values: -Infinity is absorbing. */
  function LevelAdd(a: Level, b: Level): (r: Level)
    ensures r.Db? <==> a.Db? && b.Db?
    ensures r.Db? ==> r.v == a.v + b.v
  {
    if a.Db? && b.Db? then Db(a.v + b.v) else MinusInfinity
  }
}

=== FILE: spiritbox.dfy ===
/** The spirit box as a whole: the tuner, the decibel meter, the event log,
the word tally and the audio engine, and the handlers that drive them.

Each timer tick and each user or speech event is one function call. The
current time `now` (ms), the wall-clock string of a log entry, the random
draws and the audio engine's analyser data are arguments. An EVP is
handled as one step: the cooldown timestamp, the burst the engine plays and
the log entry it adds once the burst is over.
 */
module SpiritBox {
  import opened Numbers
  import Tuner
  import Words
  import EventLog
  import DecibelMeter
  import Evp
  import AudioEngine

  datatype Box = Box(
    tuner: Tuner.Tuner,
    meter: DecibelMeter.Meter,
    log: seq<EventLog.Entry>,
    words: Words.Tally,
    engine: AudioEngine.Engine)

  /** The box as its constructor leaves it. */
  function Initial(): Box {
    Box(Tuner.Initial, DecibelMeter.Stopped, [], [], AudioEngine.Fresh)
  }

  /** What every handler keeps. */
  ghost predicate Invariant(b: Box) {
    && Tuner.Valid(b.tuner)
    && |b.meter.history| == DecibelMeter.HistoryLength
    && DecibelMeter.AllInRange(b.meter.history)
    && |b.log| <= EventLog.MaxEntries
    && Words.Distinct(b.words)
  }

  lemma InitialInvariant()
    ensures Invariant(Initial())
  {
    Tuner.InitialValid();
    DecibelMeter.StoppedIsReset();
  }

  /** The random values one EVP consumes: three per oscillator, and one for
      the log phrase. */
  datatype EvpDraws = EvpDraws(oscillators: seq<Evp.OscDraw>, phrase: Draw)

  /** The result of a tick: the new box and the burst of oscillators started
      by an EVP, if one fired. */
  datatype Step = Step(box: Box, burst: Option<seq<Evp.Oscillator>>)

  /** `triggerEVP` with `generateEVP` and `logEvp`: stamp the cooldown,
      reopen the engine when its context is gone, play a burst of the sound
      the tuned frequency selects, and log a phrase. */
  function FireEvp(b: Box, now: int, d: EvpDraws, clock: string): (r: Step)
    requires |d.oscillators| == Evp.NumOscillators
    ensures r.burst.Some? && |r.burst.value| == Evp.NumOscillators
    ensures r.burst.value == Evp.Burst(Evp.Select(b.tuner.frequency), d.oscillators)
    ensures r.box.tuner == b.tuner.(lastEvpTime := now)
    ensures r.box.engine.context
    ensures b.engine.context ==> r.box.engine == b.engine
    ensures !b.engine.context ==> r.box.engine == AudioEngine.Init(b.engine)
    ensures r.box.log == EventLog.LogEvp(b.log, clock, d.phrase)
    ensures r.box.meter == b.meter && r.box.words == b.words
    ensures Invariant(b) ==> Invariant(r.box)
  {
    var engine := if b.engine.context then b.engine else AudioEngine.Init(b.engine);
    var burst := Evp.Burst(Evp.Select(b.tuner.frequency), d.oscillators);
    Step(b.(tuner := Tuner.TriggerEvp(b.tuner, now), engine := engine, log := EventLog.LogEvp(b.log, clock, d.phrase)),
         Some(burst))
  }

  /** One tick of the sweep timer: sweep, then maybe an EVP. */
  function SweepTick(b: Box, now: int, chance: Draw, d: EvpDraws, clock: string): (r: Step)
    requires |d.oscillators| == Evp.NumOscillators
    ensures r.box.tuner.frequency == Tuner.Sweep(b.tuner).frequency
    ensures r.burst.Some? <==> Tuner.ShouldTriggerEvp(b.tuner, now, chance)
    ensures r.burst.Some? ==> r.box.tuner.lastEvpTime == now
    ensures r.burst.Some? ==> r == FireEvp(b.(tuner := Tuner.Sweep(b.tuner)), now, d, clock)
    ensures r.burst.None? ==> r.box == b.(tuner := Tuner.Sweep(b.tuner))
    ensures Invariant(b) ==> Invariant(r.box)
  {
    var t := Tuner.Sweep(b.tuner);
    var swept := b.(tuner := t);
    if Tuner.ShouldTriggerEvp(t, now, chance) then FireEvp(swept, now, d, clock)
    else Step(swept, None)
  }

  /** One tick of the decibel-meter timer on the analyser's byte data: read
      the level, update the history and peak, and maybe an EVP when the
      smoothed level is strong. */
  function MeterTick(b: Box, frame: seq<byte>, log10: real -> real, now: int, chance: Draw, d: EvpDraws, clock: string): (r: Step)
    requires |b.meter.history| > 0
    requires b.engine.analyser ==> |frame| == AudioEngine.BinCount
    requires AudioEngine.LogBound(log10)
    requires |d.oscillators| == Evp.NumOscillators
    ensures r.box.meter == DecibelMeter.Tick(b.meter, AudioEngine.DecibelLevel(b.engine, frame, log10)).meter
    ensures r.burst.Some? <==>
      DecibelMeter.Tick(b.meter, AudioEngine.DecibelLevel(b.engine, frame, log10)).strong
      && Tuner.ShouldTriggerEvp(b.tuner, now, chance)
    ensures r.burst.Some? ==> r.box.tuner.lastEvpTime == now
    ensures r.burst.Some? ==> r == FireEvp(b.(meter := r.box.meter), now, d, clock)
    ensures r.burst.None? ==> r.box.(meter := b.meter) == b
    ensures Invariant(b) ==> Invariant(r.box)
  {
    var db := AudioEngine.DecibelLevel(b.engine, frame, log10);
    var reading := DecibelMeter.Tick(b.meter, db);
    var ticked := b.(meter := reading.meter);
    if reading.strong && Tuner.ShouldTriggerEvp(b.tuner, now, chance) then FireEvp(ticked, now, d, clock)
    else Step(ticked, None)
  }

  /** Whatever tick follows an EVP within the cooldown fires no EVP of its
      own. */
  lemma NoEvpWithinCooldown(b: Box, now: int, chance: Draw, d: EvpDraws, clock: string,
                            frame: seq<byte>, log10: real -> real)
    requires |d.oscillators| == Evp.NumOscillators
    requires now - b.tuner.lastEvpTime < Tuner.EvpCooldown
    requires |b.meter.history| > 0
    requires b.engine.analyser ==> |frame| == AudioEngine.BinCount
    requires AudioEngine.LogBound(log10)
    ensures SweepTick(b, now, chance, d, clock).burst.None?
    ensures MeterTick(b, frame, log10, now, chance, d, clock).burst.None?
  {
    Tuner.GateClosedDuringCooldown(b.tuner, now, chance);
  }

  /** Two sweep ticks less than the cooldown apart fire at most one EVP. */
  lemma SweepTicksRespectCooldown(b: Box, now1: int, now2: int, c1: Draw, c2: Draw, d1: EvpDraws, d2: EvpDraws, clock: string)
    requires |d1.oscillators| == Evp.NumOscillators && |d2.oscillators| == Evp.NumOscillators
    requires SweepTick(b, now1, c1, d1, clock).burst.Some?
    requires now2 - now1 < Tuner.EvpCooldown
    ensures SweepTick(SweepTick(b, now1, c1, d1, clock).box, now2, c2, d2, clock).burst.None?
  {
    var s := SweepTick(b, now1, c1, d1, clock);
    Tuner.GateClosedDuringCooldown(s.box.tuner, now2, c2);
  }

  /** How the switching-on half of `togglePower` ends. It completes; or
      `init` rejects before it changes anything (no audio context can be
      made); or the speech recognizer's `start` throws, as it does while a
      previous session is still active. That is the last call, so by then
      the engine is ready, the noise is playing and the timers run. */
  datatype PowerStart = Started | InitRejected | RecognitionThrew

  /** The engine after `init`, `setVolume` and `generateNoise`. */
  function SwitchOn(e: AudioEngine.Engine, volume: real): (r: AudioEngine.Engine)
    ensures AudioEngine.Ready(r) && r.noise && r.modulator
    ensures r.gain == Some(volume / 100.0)
    ensures r.wetGain == AudioEngine.Init(e).wetGain && r.dryGain == AudioEngine.Init(e).dryGain
    ensures r.delayTime == AudioEngine.Init(e).delayTime
    ensures e.modulator ==> r.strays == e.strays + 1
    ensures !e.modulator ==> r.strays == e.strays
  {
    var ready := AudioEngine.Init(e);
    var loud := AudioEngine.SetVolume(ready, volume);
    assert loud.Some? && AudioEngine.Ready(loud.value);
    AudioEngine.GenerateNoise(loud.value)
  }

  /** `togglePower`. Switching on runs the engine as `SwitchOn` does; the
      catch only resets power, so a throwing recognizer leaves the engine
      running with power off. Switching off stops the meter and the noise. */
  function TogglePower(b: Box, start: PowerStart, volume: real): (r: Box)
    ensures r.tuner == Tuner.TogglePower(b.tuner, start.Started?)
    ensures !b.tuner.isOn && !start.InitRejected? ==>
      AudioEngine.Ready(r.engine) && r.engine.noise && r.engine.modulator && r.engine.gain == Some(volume / 100.0)
    ensures !b.tuner.isOn && !start.InitRejected? ==> r.engine == SwitchOn(b.engine, volume)
    ensures !b.tuner.isOn && start.InitRejected? ==> r == b
    ensures !b.tuner.isOn ==> r.meter == b.meter && r.log == b.log && r.words == b.words
    ensures b.tuner.isOn ==> r.meter == DecibelMeter.Stopped && !r.engine.noise && !r.engine.modulator
    ensures b.tuner.isOn ==> r.engine == AudioEngine.StopNoise(b.engine)
    ensures b.tuner.isOn ==> r.log == b.log && r.words == b.words
    ensures Invariant(b) ==> Invariant(r)
  {
    if !b.tuner.isOn then
      if start.InitRejected? then b
      else b.(tuner := Tuner.TogglePower(b.tuner, start.Started?), engine := SwitchOn(b.engine, volume))
    else
      DecibelMeter.StoppedIsReset();
      b.(tuner := Tuner.TogglePower(b.tuner, start.Started?), meter := DecibelMeter.Stopped,
         engine := AudioEngine.StopNoise(b.engine))
  }

  /** A recognizer that throws on switching on leaves the same box as a
      completed start, except that power is off. */
  lemma RecognitionFailureKeepsEngine(b: Box, volume: real)
    requires !b.tuner.isOn
    ensures TogglePower(b, RecognitionThrew, volume) == TogglePower(b, Started, volume).(tuner := b.tuner)
    ensures !TogglePower(b, RecognitionThrew, volume).tuner.isOn
    ensures TogglePower(b, Started, volume).tuner.isOn
  {
  }

  /** Switching on and off again leaves no modulator running. */
  lemma PowerCycleLeavesNoStray(b: Box, volume: real)
    requires !b.tuner.isOn && !b.engine.modulator
    ensures var on := TogglePower(b, Started, volume);
            var off := TogglePower(on, Started, volume);
            on.tuner.isOn && !off.tuner.isOn
            && !off.engine.noise && !off.engine.modulator && off.engine.strays == b.engine.strays
  {
  }

  /** A recognizer that throws leaves the modulator running with power off;
      the next switch-on replaces it without stopping it, so after switching
      off again one modulator is still running. */
  lemma RestartAfterRecognitionFailureLeaks(b: Box, volume: real)
    requires !b.tuner.isOn && !b.engine.modulator
    ensures var failed := TogglePower(b, RecognitionThrew, volume);
            var on := TogglePower(failed, Started, volume);
            var off := TogglePower(on, Started, volume);
            !failed.tuner.isOn && failed.engine.modulator
            && on.tuner.isOn && !off.tuner.isOn
            && !off.engine.modulator && off.engine.strays == b.engine.strays + 1
  {
  }

  /** The volume slider: `setVolume` with the slider value. */
  function VolumeInput(b: Box, value: real): (r: Option<Box>)
    ensures r.None? <==> b.engine.gain.Some? && !b.engine.context
    ensures r.Some? ==> r.value.(engine := b.engine) == b
    ensures r.Some? && b.engine.gain.Some? ==> r.value.engine.gain == Some(value / 100.0)
  {
    match AudioEngine.SetVolume(b.engine, value)
    case None => None
    case Some(e) => Some(b.(engine := e))
  }

  /** `updateEffects`: the reverb slider in percent and the delay slider in
      milliseconds, passed on as a mix in [0, 1] and a time in seconds. */
  function EffectsInput(b: Box, reverbPercent: real, delayMs: real): (r: Option<Box>)
    ensures r.None? <==>
      !b.engine.context && ((b.engine.wetGain.Some? && b.engine.dryGain.Some?) || b.engine.delayTime.Some?)
    ensures r.Some? ==> r.value.(engine := b.engine) == b
    ensures r.Some? && b.engine.wetGain.Some? && b.engine.dryGain.Some? ==>
      r.value.engine.wetGain == Some(AudioEngine.WetLevel(reverbPercent / 100.0))
    ensures r.Some? && b.engine.delayTime.Some? ==> r.value.engine.delayTime == Some(delayMs / 1000.0)
  {
    var s := AudioEngine.EffectsSettings(Some(reverbPercent / 100.0), Some(delayMs / 1000.0));
    match AudioEngine.SetEffectsSettings(b.engine, s)
    case None => None
    case Some(e) => Some(b.(engine := e))
  }

  /** `cleanup`: stop the meter and clean up the engine. The power flag is
      not touched. */
  function Cleanup(b: Box): (r: Box)
    ensures r.tuner == b.tuner && r.log == b.log && r.words == b.words
    ensures r.meter == DecibelMeter.Stopped
    ensures !r.engine.context && !r.engine.noise && !r.engine.modulator
    ensures r.engine == AudioEngine.Cleanup(b.engine)
    ensures Invariant(b) ==> Invariant(r)
  {
    DecibelMeter.StoppedIsReset();
    b.(meter := DecibelMeter.Stopped, engine := AudioEngine.Cleanup(b.engine))
  }

  // ---------------------------------------------------------------------
  // speech results

  /** One entry of `event.results`: the best alternative's transcript and
      confidence, whether it is final, and the wall-clock string at which
      it is handled. */
  datatype SpeechResult = SpeechResult(transcript: string, confidence: real, isFinal: bool, clock: string)

  /** The body of the `handleSpeechResult` loop for one result. */
  function ApplyResult(b: Box, res: SpeechResult): (r: Box)
    ensures r.tuner == b.tuner && r.meter == b.meter && r.engine == b.engine
    ensures !res.isFinal ==> r == b
    ensures res.isFinal ==> r.log == EventLog.LogTranscription(b.log, res.clock, Words.Trim(res.transcript), res.confidence)
    ensures res.isFinal ==> r.words == Words.RecordTranscript(b.words, Words.Trim(res.transcript))
    ensures Invariant(b) ==> Invariant(r)
  {
    if res.isFinal then
      var transcript := Words.Trim(res.transcript);
      b.(words := Words.RecordTranscript(b.words, transcript),
         log := EventLog.LogTranscription(b.log, res.clock, transcript, res.confidence))
    else b
  }

  /** The results from the first to the last, in order. */
  function ApplyResults(b: Box, rs: seq<SpeechResult>): (r: Box)
    decreases |rs|
  {
    if |rs| == 0 then b else ApplyResults(ApplyResult(b, rs[0]), rs[1..])
  }

  /** `handleSpeechResult`: the results from `resultIndex` on. */
  method HandleSpeechResult(b: Box, results: seq<SpeechResult>, resultIndex: nat) returns (r: Box)
    ensures resultIndex <= |results| ==> r == ApplyResults(b, results[resultIndex..])
    ensures resultIndex >= |results| ==> r == b
    ensures r.tuner == b.tuner && r.meter == b.meter && r.engine == b.engine
  {
    r := b;
    var i := resultIndex;
    while i < |results|
      invariant resultIndex <= |results| ==> resultIndex <= i <= |results|
      invariant resultIndex <= |results| ==> ApplyResults(r, results[i..]) == ApplyResults(b, results[resultIndex..])
      invariant resultIndex > |results| ==> r == b
      invariant r.tuner == b.tuner && r.meter == b.meter && r.engine == b.engine
    {
      assert results[i..][1..] == results[i + 1..];
      r := ApplyResult(r, results[i]);
      i := i + 1;
    }
    if resultIndex == |results| {
      assert results[resultIndex..] == [];
    }
  }

  /** The number of final results. */
  function Finals(rs: seq<SpeechResult>): nat {
    if |rs| == 0 then 0 else (if rs[0].isFinal then 1 else 0) + Finals(rs[1..])
  }

  /** The log part of one speech result. */
  function LogResult(log: seq<EventLog.Entry>, res: SpeechResult): (r: seq<EventLog.Entry>)
    ensures |r| == if res.isFinal then MinInt(|log| + 1, EventLog.MaxEntries) else |log|
  {
    if res.isFinal then EventLog.LogTranscription(log, res.clock, Words.Trim(res.transcript), res.confidence) else log
  }

  /** The log part of a list of speech results. */
  function LogResults(log: seq<EventLog.Entry>, rs: seq<SpeechResult>): seq<EventLog.Entry>
    decreases |rs|
  {
    if |rs| == 0 then log else LogResults(LogResult(log, rs[0]), rs[1..])
  }

  /** Handling speech results changes the log as `LogResults` does. */
  lemma {:induction false} LogOfResults(b: Box, rs: seq<SpeechResult>)
    ensures ApplyResults(b, rs).log == LogResults(b.log, rs)
    decreases |rs|
  {
    if |rs| > 0 {
      LogOfResults(ApplyResult(b, rs[0]), rs[1..]);
    }
  }

  /** Each final result adds one log entry, up to the cap; interim results
      add none. */
  lemma ResultsLogged(b: Box, rs: seq<SpeechResult>)
    requires |b.log| <= EventLog.MaxEntries
    ensures |ApplyResults(b, rs).log| == MinInt(|b.log| + Finals(rs), EventLog.MaxEntries)
  {
    LogOfResults(b, rs);
    LogLength(b.log, rs);
  }

  /** The length of the log after the results. */
  lemma {:induction false} LogLength(log: seq<EventLog.Entry>, rs: seq<SpeechResult>)
    requires |log| <= EventLog.MaxEntries
    ensures |LogResults(log, rs)| == MinInt(|log| + Finals(rs), EventLog.MaxEntries)
    decreases |rs|
  {
    if |rs| > 0 {
      var next := LogResult(log, rs[0]);
      LogLength(next, rs[1..]);
      assert Finals(rs) == (if rs[0].isFinal then 1 else 0) + Finals(rs[1..]);
      assert LogResults(log, rs) == LogResults(next, rs[1..]);
    }
  }

  lemma {:induction false} ResultsKeepInvariant(b: Box, rs: seq<SpeechResult>)
    ensures ApplyResults(b, rs).tuner == b.tuner && ApplyResults(b, rs).engine == b.engine
    ensures ApplyResults(b, rs).meter == b.meter
    ensures Invariant(b) ==> Invariant(ApplyResults(b, rs))
    decreases |rs|
  {
    if |rs| > 0 {
      ResultsKeepInvariant(ApplyResult(b, rs[0]), rs[1..]);
    }
  }

  /** Interim results change nothing. */
  lemma {:induction false} InterimResultsIgnored(b: Box, rs: seq<SpeechResult>)
    requires forall i :: 0 <= i < |rs| ==> !rs[i].isFinal
    ensures ApplyResults(b, rs) == b
    decreases |rs|
  {
    if |rs| > 0 {
      InterimResultsIgnored(b, rs[1..]);
    }
  }
}

=== FILE: tuner.dfy ===
/** The tuner of the spirit box: tuned frequency, the current sweep range,
the table of preset ranges, FM/AM mode, power, and the EVP cooldown clock.

In the JavaScript class the current range is a reference: selecting a preset
band makes `currentRange` the very object stored in the preset table, so a
later change of the sweep step is written into the table and is seen again
when the band is selected a second time. The model keeps the table in the
state and represents the current range as a reference into it (`Preset`) or
as a range of its own (`Own`, the object built for a custom range).

Restarting the sweep timer (`stopSweep` then `startSweep`) is a timer
operation; each operation reports how many restarts it performs.
 */
module Tuner {
  import opened Numbers

  datatype Unit = MHz | KHz | Hz

  datatype Range = Range(min: real, max: real, step: Number, unit: Unit)

  /** The values of the band selector. */
  datatype Band = Fm | Am | Evp | Ghost | Custom

  /** The preset table `frequencyRanges`. */
  datatype Presets = Presets(fmRange: Range, amRange: Range, evpRange: Range, ghostRange: Range, customRange: Range)
  {
    function Get(b: Band): Range {
      match b
      case Fm => fmRange
      case Am => amRange
      case Evp => evpRange
      case Ghost => ghostRange
      case Custom => customRange
    }

    function Set(b: Band, r: Range): (p: Presets)
      ensures p.Get(b) == r
      ensures forall c :: c != b ==> p.Get(c) == Get(c)
    {
      match b
      case Fm => this.(fmRange := r)
      case Am => this.(amRange := r)
      case Evp => this.(evpRange := r)
      case Ghost => this.(ghostRange := r)
      case Custom => this.(customRange := r)
    }
  }

  const InitialPresets := Presets(
    Range(87.5, 108.0, Finite(0.1), MHz),
    Range(520.0, 1710.0, Finite(10.0), KHz),
    Range(100.0, 300.0, Finite(1.0), Hz),
    Range(400.0, 800.0, Finite(1.0), Hz),
    Range(0.0, 0.0, Finite(0.1), Hz))

  /** What `currentRange` refers to: an entry of the preset table, or a
      range object of its own. */
  datatype RangeRef = Preset(band: Band) | Own(range: Range)

  datatype Mode = FM | AM

  datatype Tuner = Tuner(
    frequency: Number,
    mode: Mode,
    isOn: bool,
    presets: Presets,
    current: RangeRef,
    lastEvpTime: int)
  {
    /** The range object `currentRange` denotes. */
    function CurrentRange(): Range {
      match current
      case Preset(b) => presets.Get(b)
      case Own(r) => r
    }
  }

  const Initial := Tuner(Finite(87.5), FM, false, InitialPresets, Preset(Fm), 0)

  /** Minimum time between EVPs, in milliseconds. */
  const EvpCooldown := 2000
  /** Chance of an EVP on a sweep step or a strong meter reading. */
  const EvpChance := 0.1

  /** The frequency `toggleMode` tunes to on entering a mode. */
  function ResetFrequency(m: Mode): real {
    match m
    case FM => 87.5
    case AM => 520.0
  }

  /** A new tuner state and the number of sweep-timer restarts performed. */
  datatype Outcome = Outcome(tuner: Tuner, restarts: nat)

  /** The state the tuner can reach: every range the current range can
      denote has `min < max`. The custom entry of the table (0..0) is
      never selected, since choosing the custom band builds a new range. */
  ghost predicate Valid(t: Tuner) {
    && t.CurrentRange().min < t.CurrentRange().max
    && PresetsValid(t.presets)
  }

  ghost predicate PresetsValid(p: Presets) {
    && p.fmRange.min < p.fmRange.max
    && p.amRange.min < p.amRange.max
    && p.evpRange.min < p.evpRange.max
    && p.ghostRange.min < p.ghostRange.max
  }

  lemma InitialValid()
    ensures Valid(Initial)
  {
  }

  // ---------------------------------------------------------------------
  // sweep

  /** One tick of the sweep timer: step the frequency, wrapping to the
      range's minimum once it passes the maximum. */
  function Sweep(t: Tuner): (r: Tuner)
    ensures r == t.(frequency := r.frequency)
    ensures Valid(t) ==> Valid(r)
  {
    var range := t.CurrentRange();
    var f := Add(t.frequency, range.step);
    t.(frequency := if Above(f, range.max) then Finite(range.min) else f)
  }

  /** A sweep never leaves the frequency above the maximum, provided the
      frequency and step are numbers. */
  lemma SweepAtMostMax(t: Tuner)
    requires Valid(t)
    requires t.frequency.Finite? && t.CurrentRange().step.Finite?
    ensures Sweep(t).frequency.Finite?
    ensures Sweep(t).frequency.v <= t.CurrentRange().max
  {
  }

  /** From a frequency at or above the minimum, a positive step keeps the
      frequency inside `[min, max]`. */
  lemma SweepStaysInRange(t: Tuner)
    requires Valid(t)
    requires t.frequency.Finite? && t.frequency.v >= t.CurrentRange().min
    requires t.CurrentRange().step.Finite? && t.CurrentRange().step.v > 0.0
    ensures Sweep(t).frequency.Finite?
    ensures t.CurrentRange().min <= Sweep(t).frequency.v <= t.CurrentRange().max
  {
  }

  /** The frequency after a sweep is old + step when that is not above the
      maximum, and the minimum when it is. */
  lemma SweepStepOrWrap(t: Tuner)
    requires t.frequency.Finite? && t.CurrentRange().step.Finite?
    ensures var next := t.frequency.v + t.CurrentRange().step.v;
            Sweep(t).frequency == if next <= t.CurrentRange().max then Finite(next) else Finite(t.CurrentRange().min)
  {
  }

  /** A NaN step (a blank step field accepted into a custom range) makes the
      frequency NaN, and further sweeps keep it NaN. */
  lemma SweepWithNaNStep(t: Tuner)
    requires t.CurrentRange().step.NaN?
    ensures Sweep(t).frequency.NaN?
    ensures Sweep(Sweep(t)).frequency.NaN?
  {
  }

  /** `k` ticks of the sweep timer. */
  function Sweeps(t: Tuner, k: nat): (r: Tuner)
    ensures r == t.(frequency := r.frequency)
    ensures Valid(t) ==> Valid(r)
  {
    if k == 0 then t else Sweep(Sweeps(t, k - 1))
  }

  /** While the maximum is not passed, `k` sweeps advance the frequency by
      exactly `k` steps. */
  lemma {:induction false} SweepsAdvance(t: Tuner, k: nat)
    requires t.frequency.Finite? && t.CurrentRange().step.Finite?
    requires t.CurrentRange().step.v >= 0.0
    requires t.frequency.v + (k as real) * t.CurrentRange().step.v <= t.CurrentRange().max
    ensures Sweeps(t, k).frequency == Finite(t.frequency.v + (k as real) * t.CurrentRange().step.v)
  {
    if k > 0 {
      var s := t.CurrentRange().step.v;
      var j := (k - 1) as real;
      assert (k as real) * s == j * s + s by {
        assert k as real == j + 1.0;
      }
      SweepsAdvance(t, k - 1);
      var u := Sweeps(t, k - 1);
      assert u.CurrentRange() == t.CurrentRange();
    }
  }

  /** The first sweep that would pass the maximum lands on the minimum. */
  lemma SweepsWrap(t: Tuner, k: nat)
    requires t.frequency.Finite? && t.CurrentRange().step.Finite?
    requires t.CurrentRange().step.v >= 0.0
    requires t.frequency.v + (k as real) * t.CurrentRange().step.v <= t.CurrentRange().max
    requires t.frequency.v + ((k + 1) as real) * t.CurrentRange().step.v > t.CurrentRange().max
    ensures Sweeps(t, k + 1).frequency == Finite(t.CurrentRange().min)
  {
    SweepsAdvance(t, k);
    var s := t.CurrentRange().step.v;
    assert t.frequency.v + (k as real) * s + s == t.frequency.v + ((k + 1) as real) * s;
  }

  /** Once inside `[min, max]` with a positive step, the frequency stays
      inside for any number of sweeps. */
  lemma {:induction false} SweepsStayInRange(t: Tuner, k: nat)
    requires Valid(t)
    requires t.frequency.Finite?
    requires t.CurrentRange().min <= t.frequency.v <= t.CurrentRange().max
    requires t.CurrentRange().step.Finite? && t.CurrentRange().step.v > 0.0
    ensures Sweeps(t, k).frequency.Finite?
    ensures t.CurrentRange().min <= Sweeps(t, k).frequency.v <= t.CurrentRange().max
  {
    if k > 0 {
      SweepsStayInRange(t, k - 1);
      SweepStaysInRange(Sweeps(t, k - 1));
    }
  }

  // ---------------------------------------------------------------------
  // range selection

  /** `updateCustomRange` with the parsed values of the min, max and step
      fields. The range is replaced only when `min < max`, which is false
      when either is NaN; the step is taken as it is. */
  function UpdateCustomRange(t: Tuner, minField: Number, maxField: Number, stepField: Number): (r: Outcome)
    ensures Accepts(minField, maxField) ==>
      && r.tuner.current == Own(Range(minField.v, maxField.v, stepField, Hz))
      && r.tuner.frequency == Finite(minField.v)
      && r.tuner == t.(current := r.tuner.current, frequency := r.tuner.frequency)
      && r.restarts == (if t.isOn then 1 else 0)
    ensures !Accepts(minField, maxField) ==> r == Outcome(t, 0)
    ensures r.tuner.presets == t.presets
    ensures Valid(t) ==> Valid(r.tuner)
  {
    if Accepts(minField, maxField) then
      Outcome(t.(current := Own(Range(minField.v, maxField.v, stepField, Hz)), frequency := Finite(minField.v)),
              if t.isOn then 1 else 0)
    else
      Outcome(t, 0)
  }

  /** JavaScript `min < max` on two parsed numbers. */
  predicate Accepts(minField: Number, maxField: Number) {
    minField.Finite? && maxField.Finite? && minField.v < maxField.v
  }

  /** `handleBandChange`: a preset band makes the current range refer to its
      table entry and tunes to its minimum; the custom band goes through
      `updateCustomRange`. When the box is on, the sweep is restarted. */
  function HandleBandChange(t: Tuner, band: Band, minField: Number, maxField: Number, stepField: Number): (r: Outcome)
    ensures band != Custom ==>
      && r.tuner.current == Preset(band)
      && r.tuner.CurrentRange() == t.presets.Get(band)
      && r.tuner.frequency == Finite(t.presets.Get(band).min)
      && r.tuner == t.(current := r.tuner.current, frequency := r.tuner.frequency)
      && r.restarts == (if t.isOn then 1 else 0)
    ensures band == Custom ==>
      && r.tuner == UpdateCustomRange(t, minField, maxField, stepField).tuner
      && r.restarts == UpdateCustomRange(t, minField, maxField, stepField).restarts + (if t.isOn then 1 else 0)
    ensures r.tuner.presets == t.presets
    ensures Valid(t) ==> Valid(r.tuner)
  {
    var restart := if t.isOn then 1 else 0;
    if band == Custom then
      var o := UpdateCustomRange(t, minField, maxField, stepField);
      Outcome(o.tuner, o.restarts + restart)
    else
      Outcome(t.(current := Preset(band), frequency := Finite(t.presets.Get(band).min)), restart)
  }

  /** `updateSweepStep` with the parsed value of the step field: a step that
      is greater than zero is written into the range `currentRange` denotes,
      which is the preset table entry when a preset is selected. */
  function UpdateSweepStep(t: Tuner, stepField: Number): (r: Outcome)
    ensures Above(stepField, 0.0) ==>
      && r.tuner.CurrentRange() == t.CurrentRange().(step := stepField)
      && r.tuner.current.Preset? == t.current.Preset?
      && (t.current.Preset? ==> r.tuner.current == t.current)
      && r.restarts == (if t.isOn then 1 else 0)
    ensures !Above(stepField, 0.0) ==> r == Outcome(t, 0)
    ensures r.tuner.frequency == t.frequency && r.tuner.mode == t.mode
    ensures r.tuner.isOn == t.isOn && r.tuner.lastEvpTime == t.lastEvpTime
    ensures t.current.Preset? ==> forall b :: b != t.current.band ==> r.tuner.presets.Get(b) == t.presets.Get(b)
    ensures t.current.Own? ==> r.tuner.presets == t.presets
    ensures Valid(t) ==> Valid(r.tuner)
  {
    if Above(stepField, 0.0) then
      var changed := t.CurrentRange().(step := stepField);
      var t' := match t.current
        case Preset(b) => t.(presets := t.presets.Set(b, changed))
        case Own(_) => t.(current := Own(changed));
      Outcome(t', if t.isOn then 1 else 0)
    else
      Outcome(t, 0)
  }

  /** Because the current range aliases the preset table, a step change made
      while a preset is selected is still in effect when that band is chosen
      again, even after visiting other bands. */
  lemma StepSurvivesReselection(t: Tuner, step: Number, other: Band, b: Band, lo: Number, hi: Number, st: Number)
    requires t.current == Preset(b) && b != Custom
    requires Above(step, 0.0)
    ensures var t1 := UpdateSweepStep(t, step).tuner;
            var t2 := HandleBandChange(t1, other, lo, hi, st).tuner;
            var t3 := HandleBandChange(t2, b, lo, hi, st).tuner;
            t3.CurrentRange().step == step
            && t3.CurrentRange() == t.CurrentRange().(step := step)
  {
  }

  /** A step change made on a custom range leaves the preset table alone. */
  lemma CustomStepLeavesPresets(t: Tuner, step: Number, b: Band, lo: Number, hi: Number, st: Number)
    requires t.current.Own? && b != Custom
    ensures var t1 := UpdateSweepStep(t, step).tuner;
            HandleBandChange(t1, b, lo, hi, st).tuner.CurrentRange() == t.presets.Get(b)
  {
  }

  // ---------------------------------------------------------------------
  // mode

  /** `toggleMode`: nothing while off; while on, switch FM/AM and tune to
      the new mode's reset frequency, whatever the current range is. */
  function ToggleMode(t: Tuner): (r: Tuner)
    ensures !t.isOn ==> r == t
    ensures t.isOn ==> r.mode != t.mode && r.frequency == Finite(ResetFrequency(r.mode))
    ensures r == t.(mode := r.mode, frequency := r.frequency)
    ensures Valid(t) ==> Valid(r)
  {
    if !t.isOn then t
    else
      var m := if t.mode == FM then AM else FM;
      t.(mode := m, frequency := Finite(ResetFrequency(m)))
  }

  /** Toggling twice restores the mode. */
  lemma ToggleModeTwice(t: Tuner)
    ensures ToggleMode(ToggleMode(t)).mode == t.mode
    ensures ToggleMode(ToggleMode(t)).CurrentRange() == t.CurrentRange()
  {
  }

  /** The frequency is not bound to the current range: in the FM band,
      switching to AM tunes to 520, above the band's 108 maximum. */
  lemma ToggleModeLeavesRange()
    ensures var t := ToggleMode(Initial.(isOn := true));
            t.frequency == Finite(520.0) && t.frequency.v > t.CurrentRange().max
  {
  }

  // ---------------------------------------------------------------------
  // power

  /** The tuner part of `togglePower`: flips power; when switching on fails
      (the audio engine throws), power is left off. */
  function TogglePower(t: Tuner, startOk: bool): (r: Tuner)
    ensures r.isOn <==> !t.isOn && startOk
    ensures r == t.(isOn := r.isOn)
    ensures Valid(t) ==> Valid(r)
  {
    t.(isOn := !t.isOn && startOk)
  }

  // ---------------------------------------------------------------------
  // EVP cooldown

  /** `shouldTriggerEVP` at time `now` (ms) with the random draw `chance`. */
  predicate ShouldTriggerEvp(t: Tuner, now: int, chance: Draw) {
    now - t.lastEvpTime >= EvpCooldown && chance < EvpChance
  }

  /** The cooldown part of `triggerEVP`. */
  function TriggerEvp(t: Tuner, now: int): (r: Tuner)
    ensures r.lastEvpTime == now
    ensures r == t.(lastEvpTime := now)
  {
    t.(lastEvpTime := now)
  }

  /** The gate is closed for the cooldown after the last EVP, whatever the
      draw; after it, it opens exactly when the draw is below the chance. */
  lemma GateClosedDuringCooldown(t: Tuner, now: int, chance: Draw)
    ensures now - t.lastEvpTime < EvpCooldown ==> !ShouldTriggerEvp(t, now, chance)
    ensures now - t.lastEvpTime >= EvpCooldown ==> (ShouldTriggerEvp(t, now, chance) <==> chance < EvpChance)
  {
  }

  /** Two EVPs less than the cooldown apart cannot both pass the gate. */
  lemma NoRetriggerWithinCooldown(t: Tuner, now1: int, now2: int, c1: Draw, c2: Draw)
    requires ShouldTriggerEvp(t, now1, c1)
    requires now2 - now1 < EvpCooldown
    ensures !ShouldTriggerEvp(TriggerEvp(t, now1), now2, c2)
  {
  }

  // ---------------------------------------------------------------------
  // frequency graph peak (updateVisualization)

  /** The number of bars of the frequency graph. */
  const NumBars := 50

  /** The bar index `updateVisualization` computes for the frequency, when
      it is a bar: `floor((f - min) / (max - min) * 50)` in `[0, 50)`. */
  function PeakIndex(t: Tuner): (r: Option<int>)
    ensures r.Some? ==> 0 <= r.value < NumBars
    ensures Valid(t) ==>
      (r.Some? <==> t.frequency.Finite? && t.CurrentRange().min <= t.frequency.v < t.CurrentRange().max)
  {
    var range := t.CurrentRange();
    if t.frequency.NaN? || range.max == range.min then None
    else
      var i := ((t.frequency.v - range.min) / (range.max - range.min) * (NumBars as real)).Floor;
      IndexFacts(t.frequency.v, range.min, range.max);
      if 0 <= i < NumBars then Some(i) else None
  }

  lemma IndexFacts(f: real, lo: real, hi: real)
    requires lo != hi
    ensures lo < hi ==>
      var x := (f - lo) / (hi - lo) * (NumBars as real);
      (0 <= x.Floor && x.Floor < NumBars <==> lo <= f < hi)
  {
    if lo < hi {
      DivideByWidth(f - lo, hi - lo);
    }
  }

  /** Where a quotient by a positive width lies against 0 and 1. */
  lemma DivideByWidth(x: real, d: real)
    requires d > 0.0
    ensures 0.0 <= x / d <==> 0.0 <= x
    ensures x / d < 1.0 <==> x < d
  {
    var q := x / d;
    assert x == q * d;
    if q >= 1.0 {
      assert x - d == (q - 1.0) * d;
      assert (q - 1.0) * d >= 0.0;
    } else if q >= 0.0 {
      assert d - x == (1.0 - q) * d;
      assert (1.0 - q) * d > 0.0;
      assert q * d >= 0.0;
    } else {
      assert -x == (-q) * d;
      assert (-q) * d > 0.0;
    }
  }

  /** The bars `updateVisualization` raises: the peak bar and its
      neighbours that exist. Nothing while off. */
  function PeakBars(t: Tuner): (r: set<int>)
    ensures forall i :: i in r ==> 0 <= i < NumBars
    ensures r != {} <==> t.isOn && PeakIndex(t).Some?
    ensures t.isOn && PeakIndex(t).Some? ==> PeakIndex(t).value in r
  {
    if !t.isOn then {}
    else match PeakIndex(t)
      case None => {}
      case Some(i) =>
        {i} + (if i > 0 then {i - 1} else {}) + (if i < NumBars - 1 then {i + 1} else {})
  }
}

=== FILE: words.dfy ===
/** The transcription word tally and the word cloud built from it.

A final speech result's transcript is trimmed, lower-cased and split on
runs of whitespace; every word of at least three UTF-16 code units adds
one to its count. The tally is a JavaScript `Map`, which keeps its keys in insertion
order, so it is modelled as a sequence of entries with the update-in-place
and append-at-end behaviour of `Map.set`. The word cloud shows the ten
entries with the highest counts, in the order of a stable sort by count,
descending.
 */
module Words {
  import opened Numbers

  // ---------------------------------------------------------------------
  // text

  /** The ASCII characters of the `\s` class of JavaScript regular
      expressions (and of `String.prototype.trim`). */
  predicate IsSpace(c: char) {
    c == ' ' || c == '\t' || c == '\n' || c == '\r' || c == '\U{B}' || c == '\U{C}'
  }

  predicate NoSpace(s: string) {
    forall i :: 0 <= i < |s| ==> !IsSpace(s[i])
  }

  /** `toLowerCase` on one character, for the ASCII letters. */
  function ToLower(c: char): (r: char)
    ensures 'A' <= c <= 'Z' ==> 'a' <= r <= 'z' && r as int - c as int == 'a' as int - 'A' as int
    ensures !('A' <= c <= 'Z') ==> r == c
    ensures IsSpace(r) <==> IsSpace(c)
  {
    if 'A' <= c <= 'Z' then (c as int - 'A' as int + 'a' as int) as char else c
  }

  function Lower(s: string): (r: string)
    ensures |r| == |s|
    ensures forall i :: 0 <= i < |s| ==> r[i] == ToLower(s[i])
  {
    seq(|s|, i requires 0 <= i < |s| => ToLower(s[i]))
  }

  /** `s` without its leading whitespace. */
  function TrimStart(s: string): (r: string)
    ensures |r| <= |s| && r == s[|s| - |r|..]
    ensures forall i :: 0 <= i < |s| - |r| ==> IsSpace(s[i])
    ensures |r| > 0 ==> !IsSpace(r[0])
  {
    if |s| > 0 && IsSpace(s[0]) then
      var r := TrimStart(s[1..]);
      SpacesBeforeSuffix(s, |s| - |r|);
      SliceOfSlice(s, 1, |s| - 1 - |r|);
      r
    else s
  }

  /** The whitespace before a suffix of `s[1..]`, with the whitespace head
      of `s`. */
  lemma SpacesBeforeSuffix(s: string, k: nat)
    requires 0 < k <= |s| && IsSpace(s[0])
    requires forall i :: 0 <= i < k - 1 ==> IsSpace(s[1..][i])
    ensures forall i :: 0 <= i < k ==> IsSpace(s[i])
  {
    forall i | 0 < i < k ensures IsSpace(s[i]) {
      assert s[i] == s[1..][i - 1];
    }
  }

  /** `s` without its trailing whitespace. */
  function TrimEnd(s: string): (r: string)
    ensures |r| <= |s| && r == s[..|r|]
    ensures forall i :: |r| <= i < |s| ==> IsSpace(s[i])
    ensures |r| > 0 ==> !IsSpace(r[|r| - 1])
  {
    if |s| > 0 && IsSpace(s[|s| - 1]) then TrimEnd(s[..|s| - 1]) else s
  }

  /** `String.prototype.trim`: the slice of `s` left after removing the
      whitespace at both ends. */
  function Trim(s: string): (r: string)
    ensures exists i, j :: 0 <= i <= j <= |s| && r == s[i..j]
                        && (forall k :: 0 <= k < i ==> IsSpace(s[k]))
                        && (forall k :: j <= k < |s| ==> IsSpace(s[k]))
    ensures |r| > 0 ==> !IsSpace(r[0]) && !IsSpace(r[|r| - 1])
  {
    var a := TrimStart(s);
    var b := TrimEnd(a);
    TrimIsSlice(s, a, b);
    b
  }

  /** Whitespace cut from the front of `s` and then from the back leaves a
      slice of `s` with only whitespace outside it. */
  lemma TrimIsSlice(s: string, a: string, b: string)
    requires |a| <= |s| && a == s[|s| - |a|..]
    requires forall k :: 0 <= k < |s| - |a| ==> IsSpace(s[k])
    requires |b| <= |a| && b == a[..|b|]
    requires forall k :: |b| <= k < |a| ==> IsSpace(a[k])
    ensures exists i, j :: 0 <= i <= j <= |s| && b == s[i..j]
                        && (forall k :: 0 <= k < i ==> IsSpace(s[k]))
                        && (forall k :: j <= k < |s| ==> IsSpace(s[k]))
  {
    var i := |s| - |a|;
    var j := i + |b|;
    PrefixOfSuffix(s, i, |b|);
    forall k | j <= k < |s| ensures IsSpace(s[k]) {
      assert s[k] == a[k - i];
    }
    assert 0 <= i <= j <= |s| && b == s[i..j];
  }

  lemma PrefixOfSuffix<X>(s: seq<X>, a: nat, k: nat)
    requires a <= |s| && k <= |s| - a
    ensures s[a..][..k] == s[a..a + k]
  {
  }

  /** The longest prefix of `s` without whitespace. */
  function WordPrefix(s: string): (r: string)
    ensures |r| <= |s| && r == s[..|r|]
    ensures NoSpace(r)
    ensures |r| < |s| ==> IsSpace(s[|r|])
  {
    if |s| == 0 || IsSpace(s[0]) then "" else [s[0]] + WordPrefix(s[1..])
  }

  /** `s.split(/\s+/)`: the pieces between maximal runs of whitespace. As in
      JavaScript, an empty string gives one empty piece, and whitespace at
      an end gives an empty piece at that end. */
  function Split(s: string): (r: seq<string>)
    ensures |r| > 0
    ensures forall k :: 0 <= k < |r| ==> NoSpace(r[k])
    decreases |s|
  {
    var w := WordPrefix(s);
    if |w| == |s| then [w] else [w] + Split(TrimStart(s[|w|..]))
  }

  /** On a trimmed, non-empty string no piece of the split is empty. */
  lemma {:induction false} SplitOfTrimmedHasNoEmptyPiece(s: string)
    requires |s| > 0 && !IsSpace(s[0]) && !IsSpace(s[|s| - 1])
    ensures forall k :: 0 <= k < |Split(s)| ==> |Split(s)[k]| > 0
    decreases |s|
  {
    var w := WordPrefix(s);
    assert |w| > 0;
    if |w| < |s| {
      var tail := s[|w|..];
      var rest := TrimStart(tail);
      assert tail[|tail| - 1] == s[|s| - 1];
      assert |rest| > 0;
      assert rest[|rest| - 1] == s[|s| - 1];
      SplitOfTrimmedHasNoEmptyPiece(rest);
    }
  }

  /** The characters of `s` that are not whitespace. */
  function NonSpace(s: string): string {
    if |s| == 0 then "" else (if IsSpace(s[0]) then "" else [s[0]]) + NonSpace(s[1..])
  }

  function Concat(ws: seq<string>): string {
    if |ws| == 0 then "" else ws[0] + Concat(ws[1..])
  }

  lemma {:induction false} NonSpaceAppend(a: string, b: string)
    ensures NonSpace(a + b) == NonSpace(a) + NonSpace(b)
  {
    if |a| > 0 {
      assert (a + b)[1..] == a[1..] + b;
      NonSpaceAppend(a[1..], b);
    } else {
      assert a + b == b;
    }
  }

  lemma {:induction false} NonSpaceOfWord(w: string)
    requires NoSpace(w)
    ensures NonSpace(w) == w
  {
    if |w| > 0 {
      NonSpaceOfWord(w[1..]);
    }
  }

  lemma {:induction false} NonSpaceOfSpaces(s: string)
    requires forall i :: 0 <= i < |s| ==> IsSpace(s[i])
    ensures NonSpace(s) == ""
  {
    if |s| > 0 {
      NonSpaceOfSpaces(s[1..]);
    }
  }

  /** One step of the split: the first word, the whitespace after it, and
      the rest. */
  lemma SplitStep(s: string) returns (w: string, gap: string, rest: string)
    requires |WordPrefix(s)| < |s|
    ensures w == WordPrefix(s) && rest == TrimStart(s[|w|..])
    ensures s == w + (gap + rest)
    ensures IsGap(gap)
    ensures |rest| > 0 ==> !IsSpace(rest[0])
    ensures Split(s) == [w] + Split(rest)
  {
    w := WordPrefix(s);
    var tail := s[|w|..];
    rest := TrimStart(tail);
    var n := |s| - |rest|;
    gap := s[|w|..n];
    SliceOfSlice(s, |w|, |tail| - |rest|);
    SliceJoin(s, |w|, n);
    forall i | 0 <= i < |gap| ensures IsSpace(gap[i]) {
      assert gap[i] == tail[i];
    }
  }

  /** A non-empty run of whitespace. */
  predicate IsGap(g: string) {
    |g| > 0 && forall i :: 0 <= i < |g| ==> IsSpace(g[i])
  }

  /** The pieces `ps` put back together with `gaps[i]` between `ps[i]` and
      `ps[i + 1]`. */
  function Join(ps: seq<string>, gaps: seq<string>): string
    requires |ps| == |gaps| + 1
    decreases |gaps|
  {
    if |gaps| == 0 then ps[0] else ps[0] + gaps[0] + Join(ps[1..], gaps[1..])
  }

  /** The split breaks exactly at the maximal runs of whitespace: the input
      is the pieces joined by non-empty whitespace runs. With
      `SplitInnerPiecesNonEmpty` and `SplitIsUnique` this characterizes
      the split. */
  lemma {:induction false} SplitBreaksAtSpaceRuns(s: string)
    ensures exists gaps :: AllGaps(gaps) && |gaps| + 1 == |Split(s)| && Join(Split(s), gaps) == s
    decreases |s|
  {
    if |WordPrefix(s)| == |s| {
      assert Join(Split(s), []) == s;
    } else {
      var w, gap, rest := SplitStep(s);
      SplitBreaksAtSpaceRuns(rest);
      var gaps :| AllGaps(gaps) && |gaps| + 1 == |Split(rest)| && Join(Split(rest), gaps) == rest;
      JoinCons(w, gap, Split(rest), gaps);
      GapsCons(gap, gaps);
      assert Join(Split(s), [gap] + gaps) == s;
    }
  }

  predicate AllGaps(gaps: seq<string>) {
    forall i :: 0 <= i < |gaps| ==> IsGap(gaps[i])
  }

  lemma GapsCons(gap: string, gaps: seq<string>)
    requires IsGap(gap) && AllGaps(gaps)
    ensures AllGaps([gap] + gaps)
  {
    forall i | 0 < i < |[gap] + gaps| ensures IsGap(([gap] + gaps)[i]) {
      assert ([gap] + gaps)[i] == gaps[i - 1];
    }
  }

  lemma JoinCons(w: string, gap: string, ps: seq<string>, gaps: seq<string>)
    requires |ps| == |gaps| + 1
    ensures Join([w] + ps, [gap] + gaps) == w + (gap + Join(ps, gaps))
  {
    assert ([w] + ps)[1..] == ps;
    assert ([gap] + gaps)[1..] == gaps;
  }

  /** Every piece of a split but the first and the last is non-empty: only
      whitespace at an end of the input leaves an empty piece. */
  lemma {:induction false} SplitInnerPiecesNonEmpty(s: string)
    ensures forall k :: 0 < k < |Split(s)| - 1 ==> |Split(s)[k]| > 0
    decreases |s|
  {
    if |WordPrefix(s)| < |s| {
      var w, gap, rest := SplitStep(s);
      SplitInnerPiecesNonEmpty(rest);
      if |Split(rest)| > 1 {
        assert |WordPrefix(rest)| > 0;
      }
      InnerOfCons(w, Split(rest));
    }
  }

  lemma InnerOfCons<X>(w: seq<X>, qs: seq<seq<X>>)
    requires forall k :: 0 < k < |qs| - 1 ==> |qs[k]| > 0
    requires |qs| > 1 ==> |qs[0]| > 0
    ensures forall k :: 0 < k < |[w] + qs| - 1 ==> |([w] + qs)[k]| > 0
  {
    forall k | 0 < k < |[w] + qs| - 1 ensures |([w] + qs)[k]| > 0 {
      assert ([w] + qs)[k] == qs[k - 1];
    }
  }

  /** Any way of writing `s` as whitespace-free pieces, non-empty except
      perhaps the first and the last, joined by non-empty whitespace runs
      is the split of `s`. */
  lemma {:induction false} SplitIsUnique(s: string, ps: seq<string>, gaps: seq<string>)
    requires |ps| == |gaps| + 1
    requires forall k :: 0 <= k < |ps| ==> NoSpace(ps[k])
    requires forall k :: 0 < k < |ps| - 1 ==> |ps[k]| > 0
    requires AllGaps(gaps)
    requires Join(ps, gaps) == s
    ensures Split(s) == ps
    decreases |gaps|
  {
    if |gaps| == 0 {
      WordPrefixOf(ps[0], "");
      assert ps[0] + "" == s;
    } else {
      var tail := Join(ps[1..], gaps[1..]);
      JoinCons(ps[0], gaps[0], ps[1..], gaps[1..]);
      assert [ps[0]] + ps[1..] == ps && [gaps[0]] + gaps[1..] == gaps;
      InnerOfTail(ps);
      NoSpaceTail(ps);
      GapsTail(gaps);
      assert ps[1..][0] == ps[1];
      JoinHead(ps[1..], gaps[1..]);
      SplitOfJoin(ps[0], gaps[0], tail);
      SplitIsUnique(tail, ps[1..], gaps[1..]);
    }
  }

  /** A word, a whitespace run, and a rest that does not start with
      whitespace split into the word and the split of the rest. */
  lemma SplitOfJoin(w: string, g: string, t: string)
    requires NoSpace(w) && IsGap(g)
    requires |t| > 0 ==> !IsSpace(t[0])
    ensures Split(w + (g + t)) == [w] + Split(t)
  {
    var s := w + (g + t);
    WordPrefixOf(w, g + t);
    TrimStartOfGap(g, t);
    var w', gap, rest := SplitStep(s);
    assert s[|w|..] == g + t;
  }

  /** A join whose first piece has no whitespace, and is non-empty when
      more follows, does not start with whitespace. */
  lemma JoinHead(ps: seq<string>, gaps: seq<string>)
    requires |ps| == |gaps| + 1
    requires NoSpace(ps[0]) && (|ps| > 1 ==> |ps[0]| > 0)
    ensures |Join(ps, gaps)| > 0 ==> !IsSpace(Join(ps, gaps)[0])
  {
    if |gaps| > 0 {
      assert Join(ps, gaps)[0] == ps[0][0];
    }
  }

  lemma NoSpaceTail(ps: seq<string>)
    requires |ps| > 0 && forall k :: 0 <= k < |ps| ==> NoSpace(ps[k])
    ensures forall k :: 0 <= k < |ps[1..]| ==> NoSpace(ps[1..][k])
  {
    forall k | 0 <= k < |ps[1..]| ensures NoSpace(ps[1..][k]) {
      assert ps[1..][k] == ps[k + 1];
    }
  }

  lemma GapsTail(gaps: seq<string>)
    requires AllGaps(gaps) && |gaps| > 0
    ensures AllGaps(gaps[1..])
  {
    forall i | 0 <= i < |gaps[1..]| ensures IsGap(gaps[1..][i]) {
      assert gaps[1..][i] == gaps[i + 1];
    }
  }

  /** The longest whitespace-free prefix of `a + b` is `a`, when `a` has no
      whitespace and `b` is empty or starts with whitespace. */
  lemma WordPrefixOf(a: string, b: string)
    requires NoSpace(a)
    requires |b| > 0 ==> IsSpace(b[0])
    ensures WordPrefix(a + b) == a
  {
    var r := WordPrefix(a + b);
    assert forall i :: 0 <= i < |a| ==> (a + b)[i] == a[i];
    assert forall i :: 0 <= i < |b| ==> (a + b)[|a| + i] == b[i];
  }

  /** Trimming a run of whitespace off the front of `t` gives `t`, when `t`
      is empty or starts with a non-whitespace character. */
  lemma TrimStartOfGap(g: string, t: string)
    requires forall i :: 0 <= i < |g| ==> IsSpace(g[i])
    requires |t| > 0 ==> !IsSpace(t[0])
    ensures TrimStart(g + t) == t
  {
    var x := g + t;
    var r := TrimStart(x);
    assert forall i :: 0 <= i < |g| ==> x[i] == g[i];
    assert forall i :: 0 <= i < |t| ==> x[|g| + i] == t[i];
  }

  lemma InnerOfTail<X>(ps: seq<seq<X>>)
    requires |ps| > 0
    requires forall k :: 0 < k < |ps| - 1 ==> |ps[k]| > 0
    ensures forall k :: 0 < k < |ps[1..]| - 1 ==> |ps[1..][k]| > 0
  {
    forall k | 0 < k < |ps[1..]| - 1 ensures |ps[1..][k]| > 0 {
      assert ps[1..][k] == ps[k + 1];
    }
  }

  lemma SliceJoin<X>(s: seq<X>, a: nat, b: nat)
    requires a <= b <= |s|
    ensures s == s[..a] + (s[a..b] + s[b..])
  {
  }

  lemma SliceOfSlice<X>(s: seq<X>, a: nat, k: nat)
    requires a <= |s| && k <= |s| - a
    ensures s[a..][k..] == s[a + k..]
  {
  }

  /** Splitting loses exactly the whitespace: the pieces, put back together,
      are the non-whitespace characters of the input in order. */
  lemma {:induction false} SplitKeepsText(s: string)
    ensures Concat(Split(s)) == NonSpace(s)
    decreases |s|
  {
    if |WordPrefix(s)| == |s| {
      var w := WordPrefix(s);
      NonSpaceOfWord(w);
      assert s == w;
      assert Split(s) == [w];
      ConcatCons(w, []);
    } else {
      var w, gap, rest := SplitStep(s);
      NonSpaceOfWord(w);
      SplitKeepsText(rest);
      NonSpaceAppend(w, gap + rest);
      NonSpaceAppend(gap, rest);
      NonSpaceOfSpaces(gap);
      ConcatCons(w, Split(rest));
      assert NonSpace(gap) + NonSpace(rest) == NonSpace(rest);
      calc {
        NonSpace(s);
        NonSpace(w + (gap + rest));
        NonSpace(w) + NonSpace(gap + rest);
        w + NonSpace(rest);
        w + Concat(Split(rest));
        Concat([w] + Split(rest));
        Concat(Split(s));
      }
    }
  }

  lemma ConcatCons(w: string, ws: seq<string>)
    ensures Concat([w] + ws) == w + Concat(ws)
  {
    assert ([w] + ws)[1..] == ws;
  }

  /** The words `handleSpeechResult` takes from a final transcript, which
      the caller has already trimmed: lower-case it and split it. */
  function TranscriptWords(transcript: string): (r: seq<string>)
    ensures forall k :: 0 <= k < |r| ==> NoSpace(r[k])
  {
    Split(Lower(transcript))
  }

  // ---------------------------------------------------------------------
  // tally

  datatype Entry = Entry(word: string, count: nat)

  /** The `transcribedWords` map, in insertion order. */
  type Tally = seq<Entry>

  /** Words shorter than this are not counted. */
  const MinWordLength := 3

  /** JavaScript `length`: the number of UTF-16 code units, two for a
      character outside the Basic Multilingual Plane. */
  function Utf16Length(s: string): (n: nat)
    ensures |s| <= n <= 2 * |s|
  {
    if |s| == 0 then 0 else (if s[0] as int < 0x1_0000 then 1 else 2) + Utf16Length(s[1..])
  }

  /** Within the Basic Multilingual Plane a code unit is a character. */
  lemma {:induction false} Utf16LengthOfBmp(s: string)
    requires forall i :: 0 <= i < |s| ==> s[i] as int < 0x1_0000
    ensures Utf16Length(s) == |s|
  {
    if |s| > 0 {
      assert forall i :: 0 <= i < |s[1..]| ==> s[1..][i] == s[i + 1];
      Utf16LengthOfBmp(s[1..]);
    }
  }

  /** `word.length > 2`. */
  predicate Counted(w: string) {
    Utf16Length(w) >= MinWordLength
  }

  /** A letter and an emoji make three code units, so the word counts. */
  lemma EmojiWordCounted()
    ensures |"a\U{1F600}"| == 2 && Counted("a\U{1F600}")
  {
    assert "a\U{1F600}"[1..] == "\U{1F600}";
    assert "\U{1F600}"[1..] == "";
  }

  function Keys(t: Tally): (k: set<string>)
    ensures forall i :: 0 <= i < |t| ==> t[i].word in k
  {
    if |t| == 0 then {} else {t[0].word} + Keys(t[1..])
  }

  /** Distinct keys: what a `Map` guarantees. */
  predicate Distinct(t: Tally) {
    |t| == 0 || (t[0].word !in Keys(t[1..]) && Distinct(t[1..]))
  }

  /** `transcribedWords.get(w) || 0`. */
  function Count(t: Tally, w: string): (r: nat)
    ensures w !in Keys(t) ==> r == 0
    ensures Distinct(t) ==> forall i :: 0 <= i < |t| && t[i].word == w ==> r == t[i].count
  {
    if |t| == 0 then 0
    else
      assert forall i :: 1 <= i < |t| ==> t[i] == t[1..][i - 1];
      if t[0].word == w then t[0].count else Count(t[1..], w)
  }

  /** `transcribedWords.set(w, count + 1)`: an existing key keeps its place,
      a new key goes at the end with count 1. */
  function Increment(t: Tally, w: string): (r: Tally)
    ensures Count(r, w) == Count(t, w) + 1
    ensures forall u :: u != w ==> Count(r, u) == Count(t, u)
    ensures Keys(r) == Keys(t) + {w}
    ensures Distinct(t) ==> Distinct(r)
  {
    if |t| == 0 then [Entry(w, 1)]
    else if t[0].word == w then [t[0].(count := t[0].count + 1)] + t[1..]
    else [t[0]] + Increment(t[1..], w)
  }

  /** `Map.set` keeps the order of the keys: every existing key stays in its
      place, and a new key is appended. */
  lemma {:induction false} IncrementKeepsOrder(t: Tally, w: string)
    ensures |Increment(t, w)| == if w in Keys(t) then |t| else |t| + 1
    ensures forall i :: 0 <= i < |t| ==> Increment(t, w)[i].word == t[i].word
    ensures w !in Keys(t) ==> Increment(t, w)[|t|] == Entry(w, 1)
  {
    if |t| > 0 && t[0].word != w {
      IncrementKeepsOrder(t[1..], w);
      var r := Increment(t, w);
      assert r[1..] == Increment(t[1..], w);
    }
  }

  /** The tally update for one list of words, in order. */
  function AddWords(t: Tally, ws: seq<string>): (r: Tally)
    ensures Distinct(t) ==> Distinct(r)
    decreases |ws|
  {
    if |ws| == 0 then t
    else AddWords(if Counted(ws[0]) then Increment(t, ws[0]) else t, ws[1..])
  }

  /** The number of times `w` occurs in `ws`. */
  function Occurrences(ws: seq<string>, w: string): nat {
    if |ws| == 0 then 0 else (if ws[0] == w then 1 else 0) + Occurrences(ws[1..], w)
  }

  /** Each counted word adds exactly one per occurrence; a word of fewer
      than three UTF-16 code units is never counted. */
  lemma {:induction false} AddWordsCounts(t: Tally, ws: seq<string>, w: string)
    ensures Count(AddWords(t, ws), w) == Count(t, w) + (if Counted(w) then Occurrences(ws, w) else 0)
    decreases |ws|
  {
    if |ws| > 0 {
      var t' := if Counted(ws[0]) then Increment(t, ws[0]) else t;
      AddWordsCounts(t', ws[1..], w);
    }
  }

  /** The words in the tally after an update are the old ones and the
      counted new ones. */
  lemma {:induction false} AddWordsKeys(t: Tally, ws: seq<string>)
    ensures Keys(AddWords(t, ws)) == Keys(t) + set k | 0 <= k < |ws| && Counted(ws[k]) :: ws[k]
    decreases |ws|
  {
    if |ws| > 0 {
      var t' := if Counted(ws[0]) then Increment(t, ws[0]) else t;
      AddWordsKeys(t', ws[1..]);
      var here := set k | 0 <= k < |ws| && Counted(ws[k]) :: ws[k];
      var later := set k | 0 <= k < |ws[1..]| && Counted(ws[1..][k]) :: ws[1..][k];
      assert here == (if Counted(ws[0]) then {ws[0]} else {}) + later by {
        forall x | x in here ensures x in (if Counted(ws[0]) then {ws[0]} else {}) + later {
          var k :| 0 <= k < |ws| && Counted(ws[k]) && ws[k] == x;
          if k > 0 {
            assert ws[1..][k - 1] == x;
          }
        }
        forall x | x in later ensures x in here {
          var k :| 0 <= k < |ws[1..]| && Counted(ws[1..][k]) && ws[1..][k] == x;
          assert ws[k + 1] == x;
        }
      }
    }
  }

  /** The tally update for one final transcript. */
  function RecordTranscript(t: Tally, transcript: string): (r: Tally)
    ensures Distinct(t) ==> Distinct(r)
  {
    AddWords(t, TranscriptWords(transcript))
  }

  /** Recording a transcript raises the count of a word by the number of
      times it occurs, lower-cased, in the trimmed transcript. */
  lemma RecordTranscriptCounts(t: Tally, transcript: string, w: string)
    ensures Count(RecordTranscript(t, transcript), w)
         == Count(t, w) + (if Counted(w) then Occurrences(TranscriptWords(transcript), w) else 0)
  {
    AddWordsCounts(t, TranscriptWords(transcript), w);
  }

  // ---------------------------------------------------------------------
  // word cloud

  predicate ByCountDescending(s: seq<Entry>) {
    forall i, j :: 0 <= i < j < |s| ==> s[i].count >= s[j].count
  }

  /** Insertion of `e` after every entry whose count is at least its own. */
  function Insert(e: Entry, s: seq<Entry>): (r: seq<Entry>)
    requires ByCountDescending(s)
    ensures ByCountDescending(r)
    ensures multiset(r) == multiset(s) + multiset{e}
    ensures |r| == |s| + 1
  {
    if |s| == 0 then [e]
    else if e.count > s[0].count then [e] + s
    else
      var rest := Insert(e, s[1..]);
      InsertBelowHead(e, s, rest);
      ConsDescending(s[0], rest);
      assert s == [s[0]] + s[1..];
      [s[0]] + rest
  }

  /** Every entry of the insertion into the tail of `s` is at most the head
      of `s`, when `e` does not go before the head. */
  lemma InsertBelowHead(e: Entry, s: seq<Entry>, rest: seq<Entry>)
    requires ByCountDescending(s) && |s| > 0 && e.count <= s[0].count
    requires multiset(rest) == multiset(s[1..]) + multiset{e}
    ensures forall x :: x in rest ==> x.count <= s[0].count
  {
    forall x | x in rest ensures x.count <= s[0].count {
      assert x in multiset(rest);
      if x != e {
        assert x in multiset(s[1..]);
        var k :| 0 <= k < |s[1..]| && s[1..][k] == x;
        assert s[k + 1] == x;
      }
    }
  }

  lemma ConsDescending(x: Entry, s: seq<Entry>)
    requires ByCountDescending(s)
    requires forall y :: y in s ==> y.count <= x.count
    ensures ByCountDescending([x] + s)
  {
    var r := [x] + s;
    forall i, j | 0 <= i < j < |r| ensures r[i].count >= r[j].count {
      assert r[j] == s[j - 1];
      if i > 0 {
        assert r[i] == s[i - 1];
      }
    }
  }

  /** The stable sort `(a, b) => b[1] - a[1]` of the tally entries. */
  function SortByCount(s: seq<Entry>): (r: seq<Entry>)
    ensures ByCountDescending(r)
    ensures multiset(r) == multiset(s)
    ensures |r| == |s|
  {
    if |s| == 0 then []
    else
      assert s == s[..|s| - 1] + [s[|s| - 1]];
      Insert(s[|s| - 1], SortByCount(s[..|s| - 1]))
  }

  /** The number of words the cloud shows. */
  const CloudSize := 10

  /** `updateWordCloud`: the first ten entries of the sorted tally. */
  function WordCloud(t: Tally): (r: seq<Entry>)
    ensures |r| == if |t| < CloudSize then |t| else CloudSize
    ensures ByCountDescending(r)
    ensures multiset(r) <= multiset(t)
    ensures forall e :: e in r ==> e in t
  {
    var sorted := SortByCount(t);
    var n := if |t| < CloudSize then |t| else CloudSize;
    assert sorted == sorted[..n] + sorted[n..];
    assert multiset(sorted) == multiset(sorted[..n]) + multiset(sorted[n..]);
    assert forall e :: e in sorted[..n] ==> e in multiset(sorted);
    sorted[..n]
  }

  /** The cloud holds the highest counts: an entry of the tally left out of
      the cloud has no higher count than any shown one. */
  lemma WordCloudIsTop(t: Tally, e: Entry)
    requires e in t
    ensures e in WordCloud(t) || forall x :: x in WordCloud(t) ==> x.count >= e.count
  {
    var sorted := SortByCount(t);
    var n := if |t| < CloudSize then |t| else CloudSize;
    assert e in multiset(sorted);
    var j :| 0 <= j < |sorted| && sorted[j] == e;
    if j >= n {
      forall x | x in WordCloud(t) ensures x.count >= e.count {
        var i :| 0 <= i < n && sorted[i] == x;
      }
    } else {
      assert sorted[..n][j] == e;
    }
  }
}
